=== FILE: README.md ===
# SBS description matcher — a Dafny model

This project models the text-matching engine of the SBS mapping system. The
engine maps rows of a coded service list to rows of a provider price list by
comparing their free-text descriptions. It has five parts, and the model
proves properties of each:

- **Normaliser** (`Text`): lowercases a text, blanks everything outside
  `[a-z0-9\s]`, collapses whitespace and strips the ends. It then extracts the
  keywords: tokens that are not stop words and are longer than two characters.
- **Similarity calculator** (`Levenshtein`, `Similarity`):
  - the Jaccard coefficient of two keyword sets;
  - the Levenshtein distance, as the source's two-row dynamic programme, proved
    equal to the recursive edit distance;
  - the normalised Levenshtein similarity;
  - the 0.4/0.6 weighted blend of the two;
  - the code-string similarity.
- **Matcher** (`Sorting`, `Matcher`): scores every price-list row, keeps the
  rows at or above the threshold, stable-sorts them by descending score and
  keeps the first `top_n`.
- **Batch mapper** (`Mapper`): produces one result row per source row. A
  matched row gets a five-band confidence label, the alternative count and the
  second-best score. A row with nothing above the threshold gets the fixed
  no-match record. With no price list loaded, the mapper fails.
- **Validator** (`Validator`): sets the ambiguity and review flags and builds
  the review list (flagged rows, ascending score).

Spreadsheet cells are `Option<string>`: `None` stands for Python's `None` and
pandas' NaN. Scores are exact `real`s. Tables are sequences of records, and
the price list is a sequence of `Candidate`s. `str.isspace()` and the regular
expression class `\s` are modelled by the list of code points Python treats as
whitespace. `str.lower()` is modelled on ASCII letters only.

## Behaviour of the code worth knowing

Several choices of the code shape the contracts below:

- **Jaccard with an empty set.** The coefficient is 0.0 whenever either
  keyword set is empty, including when both are (lines 94-95). So two texts
  without keywords never have Jaccard 1, and `Similarity.ScoreOneIff` needs a
  non-empty keyword set.
- **Edit similarity of empty texts.** The normalised edit similarity is 0.0
  when either normalised text is empty, including when both are
  (lines 129-130).
- **Keyword length.** Only tokens longer than two characters are keywords
  (line 80).
- **Non-ASCII characters.** After lowercasing, every character outside
  `[a-z0-9\s]` becomes a space (line 61). Accented letters are blanked,
  not folded to their base letter.
- **Ties.** `find_best_match` never calls `code_similarity`. Candidates with
  equal scores keep their price-list order, because Python's list sort is
  stable (line 263).
- **Lowest bands.** A qualifying best score below 0.5 is labelled `VERY_LOW`.
  `NO_MATCH` is kept for rows with no qualifying candidate (lines 313-316,
  343). With the mapper's default threshold of 0.6 (line 270), `VERY_LOW`
  never occurs.
- **Review flag.** Review is required for ambiguous rows and for rows
  labelled `LOW` or `VERY_LOW` (lines 432-436). A no-match row is therefore
  never flagged.

A worked example of the definitions: "Comprehensive oral examination"
against "Comprehensive oral exam". The keyword sets give Jaccard 2/4. The
normalised texts are 30 and 23 characters long and 7 edits apart. The
weighted score is 0.4 · 2/4 + 0.6 · (1 − 7/30) = 0.66, which the mapper
labels `LOW`. The model does not prove this instance.

## Model

| member | source | states |
|---|---|---|
| Text.Normalize | sbs_ai_mapping_system.py:53-66 | a missing cell gives ""; any other result holds only `a-z`, `0-9` and single interior spaces, with no space at either end |
| Text.LowerAll | sbs_ai_mapping_system.py:58 | lowers ASCII `A-Z` only, where Python also lowers non-ASCII capitals: no ASCII capital remains, each one becomes its small letter (code point + 32), and every other character is kept |
| Text.Scrub | sbs_ai_mapping_system.py:61 | same length; `a-z`, `0-9` and whitespace stay in place and every other character becomes a space, so the result holds only those classes |
| Text.StripIff | sbs_ai_mapping_system.py:66 | the result sits inside the text with only whitespace before and after it, and neither starts nor ends with whitespace |
| Text.NormalizeIdempotent | sbs_ai_mapping_system.py:53-66 | normalising an already normalised text changes nothing |
| Text.CanonicalIsFixedPoint | sbs_ai_mapping_system.py:58-66 | lowercasing, blanking, collapsing and stripping leave a text of normalised shape unchanged |
| Text.NormalizeKeepsWords | sbs_ai_mapping_system.py:53-66 | the tokens of a normalised text are exactly the whitespace-separated runs of the lowercased text with foreign characters blanked, in order |
| Text.SplitCollapse | sbs_ai_mapping_system.py:64 | collapsing whitespace runs leaves the tokens unchanged |
| Text.SplitTrimEnd | sbs_ai_mapping_system.py:66 | dropping trailing whitespace leaves the tokens unchanged |
| Text.Collapse | sbs_ai_mapping_system.py:64 | the result is empty only for empty input, never has two adjacent spaces, keeps a leading non-space character, and adds no character outside `[a-z0-9 ]` to a blanked text |
| Text.StripCanonical | sbs_ai_mapping_system.py:66 | stripping a collapsed, blanked text gives the normalised shape |
| Text.Split | sbs_ai_mapping_system.py:79 | every token is non-empty and free of whitespace |
| Text.SplitWordChars | sbs_ai_mapping_system.py:79 | the tokens of a blanked text hold only `a-z` and `0-9` |
| Text.SplitJoinCanonical | sbs_ai_mapping_system.py:79 | joining the tokens of a normalised text with single spaces gives the text back, so splitting loses nothing |
| Text.FilterKeywords | sbs_ai_mapping_system.py:74-80 | a word is kept exactly when it occurs in the input, is not a stop word and is longer than two characters; the output is no longer than the input |
| Text.ExtractKeywords | sbs_ai_mapping_system.py:69-82 | each keyword is a token of the normalised text, longer than two characters, not a stop word, made of `a-z0-9`; every such token is a keyword |
| Text.KeywordsOfText | sbs_ai_mapping_system.py:69-82 | a word is a keyword of a text cell exactly when it is a keyword-length, non-stop-word token of the lowercased text with foreign characters blanked |
| Text.KeywordSetMembers | sbs_ai_mapping_system.py:91-92 | a word is in the keyword set of a cell exactly when it is a token of the normalised cell, longer than two characters and not a stop word |
| Levenshtein.NextRow | sbs_ai_mapping_system.py:112-119 | one pass of the inner loop turns the distances from `s1[..i]` to every prefix of `s2` into those from `s1[..i+1]` |
| Levenshtein.LevenshteinDistance | sbs_ai_mapping_system.py:103-121 | the swap, the empty-string shortcut and the two-row programme return the recursive insert/delete/substitute edit distance |
| Levenshtein.EditDistanceSymmetric | sbs_ai_mapping_system.py:105-106 | the distance does not depend on argument order, which makes the swap sound |
| Levenshtein.EditDistanceZeroIff | sbs_ai_mapping_system.py:103-121 | the distance is 0 exactly when the strings are equal |
| Levenshtein.EditDistanceBounds | sbs_ai_mapping_system.py:108-109 | against an empty string the distance is the other length; in general it lies between the length difference and the longer length |
| Levenshtein.DistBounds | sbs_ai_mapping_system.py:111-119 | every table entry lies between the prefix length difference and the longer prefix length |
| Similarity.SetJaccard | sbs_ai_mapping_system.py:94-100 | in [0, 1]; 0 when either set is empty and exactly when the sets are disjoint; 1 exactly when the sets are equal and non-empty |
| Similarity.Jaccard | sbs_ai_mapping_system.py:89-100 | in [0, 1]; 0 when either text has no keyword; 1 exactly when both texts have the same non-empty keyword set |
| Similarity.SetJaccardSymmetric | sbs_ai_mapping_system.py:94-100 | the coefficient of two sets does not depend on their order |
| Similarity.JaccardSymmetric | sbs_ai_mapping_system.py:89-100 | argument order does not matter |
| Similarity.JaccardDependsOnKeywordSet | sbs_ai_mapping_system.py:91-92 | two texts whose keyword lists hold the same words, in any order and with any repetition, score the same against every third text |
| Similarity.RatioBounds | sbs_ai_mapping_system.py:135 | a distance no larger than the longer length gives a ratio in [0, 1] that is 0 or 1 only at the extremes |
| Similarity.LevenshteinRatio | sbs_ai_mapping_system.py:129-135 | 0 when either text is empty, else 1 − distance / longer length; in [0, 1]; 1 exactly when the texts are equal and non-empty |
| Similarity.NormalizedLevenshtein | sbs_ai_mapping_system.py:124-135 | in [0, 1]; 0 when either normalised text is empty; 1 exactly when the normalised texts are equal and non-empty |
| Similarity.NormalizedLevenshteinSymmetric | sbs_ai_mapping_system.py:124-135 | argument order does not matter |
| Similarity.Weighted | sbs_ai_mapping_system.py:138-145 | with non-negative weights the blend lies between 0 and the sum of the weights |
| Similarity.BlendBounds | sbs_ai_mapping_system.py:145 | a non-negative weighting of two scores in [0, 1] lies between 0 and the sum of the weights |
| Similarity.Score | sbs_ai_mapping_system.py:138-145 | with the default 0.4/0.6 weights the score lies in [0, 1] |
| Similarity.WeightedSymmetric | sbs_ai_mapping_system.py:138-145 | argument order does not matter, for any weights |
| Similarity.ScoreOneIff | sbs_ai_mapping_system.py:138-145 | the default score is 1 exactly when both texts normalise to the same string and that string has a keyword |
| Similarity.KeywordSetFromNormalized | sbs_ai_mapping_system.py:71-82 | texts with equal normalisations have equal keyword sets |
| Similarity.IsSubstring | sbs_ai_mapping_system.py:161 | the empty code is contained in every code; a contained code is never longer than the code containing it |
| Similarity.SubstringIff | sbs_ai_mapping_system.py:161 | the recursive containment test holds exactly when the code occurs at some offset of the other |
| Similarity.PositionalMatches | sbs_ai_mapping_system.py:165-166 | the count of agreeing positions among the first `n` is at most `n`, and equals `n` exactly when the two length-`n` prefixes are equal |
| Similarity.AllMatchContains | sbs_ai_mapping_system.py:161-166 | codes agreeing at every position of the shorter one are contained one in the other |
| Similarity.CodeTailBound | sbs_ai_mapping_system.py:165-168 | when neither code contains the other the longer length is positive and exceeds the agreeing positions, so the last branch never divides by zero and stays below 1 |
| Similarity.CodeRatio | sbs_ai_mapping_system.py:156-168 | in [0, 1]; 1 exactly for equal codes; 0.9 for distinct codes one of which contains the other; otherwise agreeing positions over the longer length |
| Similarity.CodeSimilarity | sbs_ai_mapping_system.py:148-168 | a missing code gives 0; in [0, 1]; 1 exactly when both codes are present and equal after stripping |
| Similarity.CodeSimilaritySymmetric | sbs_ai_mapping_system.py:148-168 | argument order does not matter |
| Similarity.CodeSimilarityEmpty | sbs_ai_mapping_system.py:161-162 | an empty stripped code against a different present code scores 0.9 |
| Sorting.Insert | sbs_ai_mapping_system.py:263 | inserting into a sorted sequence keeps it sorted and adds exactly the one element |
| Sorting.SortBy | sbs_ai_mapping_system.py:263 | the result is a permutation of the input, ascending in the key |
| Sorting.SortStable | sbs_ai_mapping_system.py:263 | elements with equal keys keep their input order |
| Matcher.ScoresOf | sbs_ai_mapping_system.py:239-245 | one score per price-list row, the weighted similarity of its description to the source, in [0, 1] |
| Matcher.Qualifying | sbs_ai_mapping_system.py:239-260 | exactly the rows scoring at least the threshold, each entry copied unchanged from its row, in row order; empty exactly when no row qualifies |
| Matcher.Ranked | sbs_ai_mapping_system.py:262-263 | a permutation of the qualifying entries, higher scores first, equal scores in row order |
| Matcher.TakeFirst | sbs_ai_mapping_system.py:265 | Python's `[:n]`: a prefix of length `min(n, len)`, or `len + n` when `n` is negative, never below 0 |
| Matcher.Select | sbs_ai_mapping_system.py:262-265 | for `top_n ≥ 0`, at most `top_n` entries; in every case each entry is a qualifying row copied unchanged, and the entries are ordered by descending score and then by row order |
| Matcher.SelectSize | sbs_ai_mapping_system.py:247-265 | with `top_n ≥ 1` the result holds `min(top_n, qualifying)` entries and is empty exactly when no row qualifies |
| Matcher.LeftOutRankLower | sbs_ai_mapping_system.py:262-265 | a qualifying row left out ranks after the last entry returned: a lower score, or an equal score and a later row |
| Matcher.FirstIsBest | sbs_ai_mapping_system.py:262-265 | the first entry scores at least as high as every qualifying row |
| Matcher.FindBestMatch | sbs_ai_mapping_system.py:217-265 | for `top_n ≥ 0`, at most `top_n` entries; in every case each entry carries a real row's index, description, code and price with that row's weighted score ≥ threshold; descending score, ties in row order |
| Mapper.LabelInjective | sbs_ai_mapping_system.py:27-32 | the six label strings are pairwise distinct, so two levels have the same label exactly when they are the same level, which makes the validator's string comparisons a test of the level |
| Mapper.Classify | sbs_ai_mapping_system.py:307-316 | never no-match; the chosen level's floor is reached, and no better graded level's floor is |
| Mapper.ClassifyMonotone | sbs_ai_mapping_system.py:307-316 | a higher score never gets a worse level |
| Mapper.NoMatchRow | sbs_ai_mapping_system.py:336-347 | the source code and description, no matched code, description or price, score 0, no-match level, 0 alternatives, no second-best score |
| Mapper.MatchedRow | sbs_ai_mapping_system.py:302-328 | the best entry's code, description, score and price; the level of that score; one alternative per further entry; the second entry's score when there is one |
| Mapper.MapRow | sbs_ai_mapping_system.py:288-349 | keeps the source fields; at most 4 alternatives; the second-best score never exceeds the score; either the no-match record or a graded level for a score at or above the threshold |
| Mapper.MapToPriceList | sbs_ai_mapping_system.py:283-349 | for a source table with the default numeric index: fails exactly when no price list is loaded; otherwise one result per source row, in row order |
| Mapper.NoMatchIff | sbs_ai_mapping_system.py:302-347 | a row gets the no-match record exactly when no price-list row reaches the threshold |
| Mapper.MatchedIsBest | sbs_ai_mapping_system.py:302-325 | a matched row reports a real price-list row whose score is the highest of all qualifying rows |
| Mapper.AlternativesCount | sbs_ai_mapping_system.py:326 | for a matched row, the alternative count is one less than `min(5, qualifying rows)`; a no-match row has 0 alternatives and no qualifying row |
| Mapper.MapWithDefaultThreshold | sbs_ai_mapping_system.py:267-316 | with the default 0.6 threshold and a source table with the default numeric index: fails exactly when no price list is loaded; otherwise one result per source row, none labelled very low, every matched row scoring at least 0.6 |
| Mapper.VeryLowUnreachableAll | sbs_ai_mapping_system.py:293-316 | with a threshold of at least 0.5 no row of a whole table is labelled very low |
| Mapper.VeryLowUnreachable | sbs_ai_mapping_system.py:293-316 | with a threshold of at least 0.5 no row is labelled very low |
| Validator.Ambiguous | sbs_ai_mapping_system.py:424-429 | only a row with a second-best score can be ambiguous; with a non-positive difference a row whose second-best score does not exceed its score is not |
| Validator.AmbiguousMonotone | sbs_ai_mapping_system.py:424-429 | a row ambiguous under one difference stays ambiguous under any larger one |
| Validator.NeedsReview | sbs_ai_mapping_system.py:432-436 | review is required exactly for ambiguous rows and rows at the low or very-low level |
| Validator.FlagAmbiguous | sbs_ai_mapping_system.py:422-438 | every input row, unchanged and in order, with the ambiguity flag and the review flag |
| Validator.NoMatchNeverReviewed | sbs_ai_mapping_system.py:424-436 | a no-match row from the mapper is never flagged for review |
| Validator.NeverAmbiguousBelowZero | sbs_ai_mapping_system.py:424-429 | with a non-positive difference no mapped row is ambiguous, since the second-best score never exceeds the best |
| Validator.FilterReview | sbs_ai_mapping_system.py:455 | exactly the rows with the review flag set, each as often as in the input |
| Validator.ReviewList | sbs_ai_mapping_system.py:453-456 | a permutation of the flagged rows under the default 0.05 difference, in ascending score order |
| Validator.ReviewListMembers | sbs_ai_mapping_system.py:453-456 | a row is listed exactly when it is ambiguous or at the low or very-low level |
| Validator.FlagResults | sbs_ai_mapping_system.py:422-438 | fails exactly on an empty mapping, whose frame has no columns; otherwise the flagged rows |
| Validator.GenerateReviewList | sbs_ai_mapping_system.py:453-456 | fails exactly on an empty mapping; otherwise the review list |
| Validator.ReviewAfterMapping | sbs_ai_mapping_system.py:283-355 | with a price list loaded and a source table with the default numeric index, mapping succeeds, and building the review list from its result fails exactly when the source table is empty |

## Left out

- File loading and column renaming (sbs_ai_mapping_system.py:180-215). This is
  spreadsheet I/O; the model takes the tables as sequences of records.
- Copying of the remaining price-list columns into each match
  (sbs_ai_mapping_system.py:255-258). The copy runs after the threshold test
  (line 247) and before the sort (line 263), and it uses the column names
  unprefixed. The model keeps only the `price` column, as `Candidate.price`.
  The consequences of the copy are stated under `Matcher.FindBestMatch` below.
- Copying of the remaining source columns into each matched result
  (sbs_ai_mapping_system.py:330-333). These keys carry the prefix
  `original_`, so they cannot overwrite a key the mapper reads or writes.
  The model does not carry the extra columns.
- The progress message (sbs_ai_mapping_system.py:351-353). Its `print` is
  console output. Its test `(idx + 1) % 100` runs on every row's index label
  and is not harmless; the lines for `Mapper.MapToPriceList`,
  `Mapper.MapWithDefaultThreshold` and `Validator.ReviewAfterMapping` below
  state what it requires.
- `generate_mapping_report` (sbs_ai_mapping_system.py:357-403). It computes
  a floating-point mean, reads a wall-clock timestamp and writes a JSON file.
- The Excel export of the review list (sbs_ai_mapping_system.py:458-460). It
  is file output.
- `create_sample_workflow` (sbs_ai_mapping_system.py:466-519). It only
  returns a string literal.
- sbs_mapping_cli.py and setup.py. These hold argument parsing, file checks,
  charts, package installation and interactive input; none of it is part of
  this model.
- The `MappingResult` dataclass (sbs_ai_mapping_system.py:35-46). The engine
  never constructs it; its results are dictionaries, modelled as
  `Mapper.MappingRow`.
- Floating point. Scores are exact reals, so IEEE-754 rounding at the band
  edges (for example a score a rounding error below 0.95) is not modelled.
- Non-string cells. A number in a description column goes through `str()` in
  the source; the model's cells are already strings.
- Text.LowerAll: lowers `A-Z` only. Python's `str.lower()` at
  sbs_ai_mapping_system.py:58 lowers every cased character, so `É` becomes
  `é` and `Ω` becomes `ω`, where the model keeps both. The next step (line 61)
  blanks every character outside `[a-z0-9\s]`, so such a lowered capital
  becomes a space in the source just as the unlowered one does in the model.
  The few characters that lower into `a-z` are the exception, stated under
  `Text.Normalize` below.
- Text.Normalize: lowercases ASCII letters only. Python's `str.lower()`
  also maps a few non-ASCII characters into `a-z`: the Kelvin sign becomes
  `k`, and `İ` becomes `i` followed by a combining dot. For those the source
  keeps a letter where the model blanks it.
- Matcher.FindBestMatch: assumes no price-list column is named
  `similarity_score`, `description`, `code` or `index`. The copy at
  sbs_ai_mapping_system.py:256-258 would overwrite that key of the match. A
  `similarity_score` column replaces the computed score, so the order of the
  sort (line 263), the score the mapper reports (line 306) and its confidence
  band (lines 307-316) all follow the copied value. The threshold test
  (line 247) still uses the computed score. The model always keeps the
  computed score and the row's own fields.
- Matcher.FindBestMatch: a match's `index` is the row's position. The source
  copies the DataFrame index label, which is the position for the default
  index that `read_excel` and `read_csv` produce.
- Validator.ReviewList: pandas' `sort_values` is not stable. The model sorts
  stably, so its tie order is one of the orders pandas may produce; the
  contract states membership, multiplicity and ascending order only.
- Mapper.MapToPriceList: the model returns the rows themselves, not the
  pandas frame built from them (sbs_ai_mapping_system.py:355). For an empty
  source table that frame has no columns at all; the model returns the empty
  sequence, and the validator's failure on it is modelled separately.
- Mapper.MapToPriceList: assumes the source table has the default numeric
  index, so a row's label is its position. The model has no index label.
  The source computes `(idx + 1) % 100` on each row's label
  (sbs_ai_mapping_system.py:352). With a non-numeric index, such as a string
  index from `read_excel(..., index_col=0)` on a code column, that raises
  `TypeError` on the first row, and the whole call fails with no results.
  The model's mapping never fails in that case.
- Mapper.MapWithDefaultThreshold: assumes the default numeric source index,
  as `Mapper.MapToPriceList` does; with a non-numeric index the source raises
  `TypeError` at sbs_ai_mapping_system.py:352.
- Validator.ReviewAfterMapping: its "mapping succeeds" assumes the default
  numeric source index; with a non-numeric index the mapping step already
  raises `TypeError` at sbs_ai_mapping_system.py:352.
- Validator.ReviewList: on an empty mapping it returns the empty list, where
  the source raises. An empty mapping is a frame without columns
  (sbs_ai_mapping_system.py:355). Assigning the result of `apply` at line 431
  raises on it, and if it did not, the `confidence` lookup at line 434 would
  raise a `KeyError`. The raise is modelled by `Validator.FlagResults` and
  `Validator.GenerateReviewList`, which fail exactly for an empty mapping.

=== FILE: levenshtein.dfy ===
/** Levenshtein distance (`SimilarityCalculator.levenshtein_distance`).

    `Dist(a, b, i, j)` is the textbook recursive definition: the least number
    of single-character insertions, deletions and substitutions turning the
    first `i` characters of `a` into the first `j` characters of `b`.
    `LevenshteinDistance` is the source's two-row dynamic programme, proved to
    compute it. */
module Levenshtein {
  import opened Wrappers

  function Min3(a: nat, b: nat, c: nat): (m: nat) {
    if a <= b && a <= c then a else if b <= c then b else c
  }

  /** The edit distance between `a[..i]` and `b[..j]`: when either prefix is
      empty, the length of the other. */
  function Dist(a: string, b: string, i: nat, j: nat): (d: nat)
    requires i <= |a| && j <= |b|
    decreases i + j, 1
  {
    if i == 0 || j == 0 then i + j else Recur(a, b, i, j)
  }

  /** The recurrence for two non-empty prefixes: delete `a[i - 1]`, insert
      `b[j - 1]`, or substitute one for the other (free when they agree). */
  function Recur(a: string, b: string, i: nat, j: nat): (d: nat)
    requires 0 < i <= |a| && 0 < j <= |b|
    decreases i + j, 0
  {
    Min3(Dist(a, b, i - 1, j) + 1,
         Dist(a, b, i, j - 1) + 1,
         Dist(a, b, i - 1, j - 1) + SubstCost(a, b, i, j))
  }

  function SubstCost(a: string, b: string, i: nat, j: nat): (c: nat)
    requires 0 < i <= |a| && 0 < j <= |b|
  {
    if a[i - 1] == b[j - 1] then 0 else 1
  }

  /** The distance lies between the difference of the lengths and the larger
      length. */
  lemma {:induction false} DistBounds(a: string, b: string, i: nat, j: nat)
    requires i <= |a| && j <= |b|
    ensures Dist(a, b, i, j) <= Max(i, j)
    ensures i - j <= Dist(a, b, i, j) && j - i <= Dist(a, b, i, j)
    decreases i + j
  {
    if i > 0 && j > 0 {
      DistBounds(a, b, i - 1, j);
      DistBounds(a, b, i, j - 1);
      DistBounds(a, b, i - 1, j - 1);
    }
  }

  /** The edit distance between two whole strings. */
  function EditDistance(a: string, b: string): (d: nat) {
    Dist(a, b, |a|, |b|)
  }

  lemma {:induction false} DistSymmetric(a: string, b: string, i: nat, j: nat)
    requires i <= |a| && j <= |b|
    ensures Dist(a, b, i, j) == Dist(b, a, j, i)
    decreases i + j
  {
    if i > 0 && j > 0 {
      DistSymmetric(a, b, i - 1, j);
      DistSymmetric(a, b, i, j - 1);
      DistSymmetric(a, b, i - 1, j - 1);
    }
  }

  /** The distance to an empty string is the other string's length, and in
      general it lies between the difference of the lengths and the larger
      length. */
  lemma EditDistanceBounds(a: string, b: string)
    ensures |a| == 0 ==> EditDistance(a, b) == |b|
    ensures |b| == 0 ==> EditDistance(a, b) == |a|
    ensures |a| - |b| <= EditDistance(a, b) && |b| - |a| <= EditDistance(a, b)
    ensures EditDistance(a, b) <= Max(|a|, |b|)
  {
    DistBounds(a, b, |a|, |b|);
  }

  /** The distance does not depend on which string comes first. */
  lemma EditDistanceSymmetric(a: string, b: string)
    ensures EditDistance(a, b) == EditDistance(b, a)
  {
    DistSymmetric(a, b, |a|, |b|);
  }

  lemma {:induction false} DistZeroIff(a: string, b: string, i: nat, j: nat)
    requires i <= |a| && j <= |b|
    ensures Dist(a, b, i, j) == 0 <==> i == j && a[..i] == b[..j]
    decreases i + j
  {
    if i > 0 && j > 0 {
      DistZeroIff(a, b, i - 1, j - 1);
      assert a[..i] == a[..i - 1] + [a[i - 1]];
      assert b[..j] == b[..j - 1] + [b[j - 1]];
      if i == j && a[..i] == b[..j] {
        assert a[..i - 1] == a[..i][..i - 1] == b[..j][..j - 1] == b[..j - 1];
        assert a[i - 1] == a[..i][i - 1];
      }
    }
  }

  /** The distance is zero exactly when the strings are equal. */
  lemma EditDistanceZeroIff(a: string, b: string)
    ensures EditDistance(a, b) == 0 <==> a == b
  {
    DistZeroIff(a, b, |a|, |b|);
    assert a[..|a|] == a && b[..|b|] == b;
  }

  /** Builds row `i + 1` of the table from row `i`, as the inner loop does. */
  method NextRow(s1: string, s2: string, i: nat, previous: seq<nat>) returns (current: seq<nat>)
    requires i < |s1|
    requires |previous| == |s2| + 1
    requires forall j :: 0 <= j <= |s2| ==> previous[j] == Dist(s1, s2, i, j)
    ensures |current| == |s2| + 1
    ensures forall j :: 0 <= j <= |s2| ==> current[j] == Dist(s1, s2, i + 1, j)
  {
    current := [i + 1];
    var j := 0;
    while j < |s2|
      invariant 0 <= j <= |s2|
      invariant |current| == j + 1
      invariant forall k :: 0 <= k <= j ==> current[k] == Dist(s1, s2, i + 1, k)
    {
      var insertions := previous[j + 1] + 1;
      var deletions := current[j] + 1;
      var substitutions := previous[j] + (if s1[i] != s2[j] then 1 else 0);
      current := current + [Min3(insertions, deletions, substitutions)];
      j := j + 1;
    }
  }

  /** The source's two-row dynamic programme: after the swap the longer string
      indexes the rows, and `previous` holds the distances from the first `i`
      characters of `s1` to every prefix of `s2`. */
  method LevenshteinDistance(s1: string, s2: string) returns (d: nat)
    ensures d == EditDistance(s1, s2)
    decreases if |s1| < |s2| then 1 else 0
  {
    if |s1| < |s2| {
      d := LevenshteinDistance(s2, s1);
      EditDistanceSymmetric(s2, s1);
      return;
    }
    if |s2| == 0 {
      return |s1|;
    }
    var previous: seq<nat> := seq(|s2| + 1, j requires 0 <= j <= |s2| => j);
    assert forall j :: 0 <= j <= |s2| ==> previous[j] == Dist(s1, s2, 0, j);
    var i := 0;
    while i < |s1|
      invariant 0 <= i <= |s1|
      invariant |previous| == |s2| + 1
      invariant forall j :: 0 <= j <= |s2| ==> previous[j] == Dist(s1, s2, i, j)
    {
      previous := NextRow(s1, s2, i, previous);
      i := i + 1;
    }
    d := previous[|s2|];
  }
}

=== FILE: mapper.dfy ===
/** `SBSMappingEngine.map_to_price_list` and `MatchConfidence`: one result per
    source row, built from the row's best price-list matches, with a
    five-band confidence label, or a fixed no-match record. */
module Mapper {
  import opened Wrappers
  import opened Text
  import opened Similarity
  import opened Matcher

  /** `MatchConfidence`. */
  datatype Confidence = Exact | High | Medium | Low | VeryLow | NoMatch

  /** The enum's value, the text stored in the result's confidence column. */
  function Label(c: Confidence): string {
    match c
    case Exact => "Exact Match"
    case High => "High Confidence (>90%)"
    case Medium => "Medium Confidence (70-90%)"
    case Low => "Low Confidence (50-70%)"
    case VeryLow => "Very Low Confidence (<50%)"
    case NoMatch => "No Match Found"
  }

  /** Distinct levels have distinct labels, so comparing labels, as the
      validator does, is comparing levels. */
  lemma LabelInjective(c1: Confidence, c2: Confidence)
    ensures Label(c1) == Label(c2) <==> c1 == c2
  {
  }

  /** The order of the levels, best first. */
  function Rank(c: Confidence): (n: nat)
    ensures n <= 5
  {
    match c
    case Exact => 5
    case High => 4
    case Medium => 3
    case Low => 2
    case VeryLow => 1
    case NoMatch => 0
  }

  /** The least score a graded level admits; the lowest graded level takes
      every score below the next one up. */
  function Floor(c: Confidence): (f: real)
    ensures 0.0 <= f < 1.0
  {
    match c
    case Exact => 0.95
    case High => 0.90
    case Medium => 0.70
    case Low => 0.50
    case VeryLow => 0.0
    case NoMatch => 0.0
  }

  /** The five bands applied to the best score: the best graded level whose
      floor the score reaches, never `NoMatch`. */
  function Classify(score: real): (c: Confidence)
    ensures c != NoMatch
    ensures c == VeryLow || Floor(c) <= score
    ensures forall b: Confidence :: b != NoMatch && b != VeryLow && Rank(b) > Rank(c) ==> score < Floor(b)
  {
    if score >= 0.95 then Exact
    else if score >= 0.90 then High
    else if score >= 0.70 then Medium
    else if score >= 0.50 then Low
    else VeryLow
  }

  /** A higher score never gets a worse level. */
  lemma ClassifyMonotone(s1: real, s2: real)
    requires s1 <= s2
    ensures Rank(Classify(s1)) <= Rank(Classify(s2))
  {
  }

  /** A source row: its code and description cells. */
  datatype SourceRow = SourceRow(code: Cell, description: Cell)

  /** One result row; the extra `original_*` columns are not modelled. */
  datatype MappingRow = MappingRow(
    sourceCode: Cell,
    sourceDescription: Cell,
    matchedCode: Cell,
    matchedDescription: Cell,
    score: real,
    confidence: Confidence,
    price: Option<real>,
    alternatives: nat,
    secondBest: Option<real>)

  datatype MapError = PriceListNotLoaded

  /** The number of matches asked of `find_best_match` per row. */
  const TopN: nat := 5

  /** The default `min_threshold` of `map_to_price_list`. */
  const DefaultThreshold: real := 0.6

  /** The record for a row with no qualifying match. */
  function NoMatchRow(row: SourceRow): (r: MappingRow)
    ensures r.sourceCode == row.code && r.sourceDescription == row.description
    ensures r.confidence == NoMatch && r.score == 0.0 && r.alternatives == 0
    ensures r.matchedCode.None? && r.matchedDescription.None? && r.price.None? && r.secondBest.None?
  {
    MappingRow(row.code, row.description, None, None, 0.0, NoMatch, None, 0, None)
  }

  /** The record built from a non-empty, best-first list of matches. */
  function MatchedRow(row: SourceRow, matches: seq<Match>): (r: MappingRow)
    requires |matches| > 0
    ensures r.sourceCode == row.code && r.sourceDescription == row.description
    ensures r.score == matches[0].score && r.confidence == Classify(matches[0].score)
    ensures r.matchedCode == matches[0].code && r.matchedDescription == matches[0].description
    ensures r.price == matches[0].price
    ensures r.alternatives + 1 == |matches|
    ensures r.secondBest.Some? <==> |matches| > 1
    ensures r.secondBest.Some? ==> r.secondBest.value == matches[1].score
  {
    var best := matches[0];
    MappingRow(row.code, row.description, best.code, best.description, best.score,
               Classify(best.score), best.price, |matches| - 1,
               if |matches| > 1 then Some(matches[1].score) else None)
  }

  /** The result for one source row. */
  function MapRow(priceList: seq<Candidate>, row: SourceRow, threshold: real): (r: MappingRow)
    ensures r.sourceCode == row.code && r.sourceDescription == row.description
    ensures r.alternatives <= TopN - 1
    ensures r.secondBest.Some? ==> r.secondBest.value <= r.score
    ensures r.confidence == NoMatch ==> r == NoMatchRow(row)
    ensures r.confidence != NoMatch ==> r.confidence == Classify(r.score) && r.score >= threshold
  {
    var matches := FindBestMatch(row.description, priceList, TopN, threshold);
    if |matches| > 0 then
      assert |matches| <= TopN;
      assert |matches| > 1 ==> Precedes(matches[0], matches[1]);
      MatchedRow(row, matches)
    else NoMatchRow(row)
  }

  /** `map_to_price_list`: fails when no price list is loaded, otherwise one
      result per source row, in row order. */
  function MapToPriceList(priceList: Option<seq<Candidate>>, rows: seq<SourceRow>, threshold: real)
    : (r: Result<seq<MappingRow>, MapError>)
    ensures r.Failure? <==> priceList.None?
    ensures r.Success? ==> |r.value| == |rows|
    ensures r.Success? ==> forall i :: 0 <= i < |rows| ==> r.value[i] == MapRow(priceList.value, rows[i], threshold)
  {
    if priceList.None? then Failure(PriceListNotLoaded)
    else Success(seq(|rows|, i requires 0 <= i < |rows| => MapRow(priceList.value, rows[i], threshold)))
  }

  /** `map_to_price_list` with its default threshold of 0.6: no row is ever
      labelled very low, and every matched row scores at least 0.6. */
  function MapWithDefaultThreshold(priceList: Option<seq<Candidate>>, rows: seq<SourceRow>)
    : (r: Result<seq<MappingRow>, MapError>)
    ensures r.Failure? <==> priceList.None?
    ensures r.Success? ==> |r.value| == |rows|
    ensures r.Success? ==> forall i :: 0 <= i < |rows| ==>
              r.value[i].confidence != VeryLow
              && (r.value[i].confidence != NoMatch ==> r.value[i].score >= DefaultThreshold)
  {
    if priceList.None? then MapToPriceList(priceList, rows, DefaultThreshold)
    else
      VeryLowUnreachableAll(priceList.value, rows, DefaultThreshold);
      MapToPriceList(priceList, rows, DefaultThreshold)
  }

  lemma VeryLowUnreachableAll(priceList: seq<Candidate>, rows: seq<SourceRow>, threshold: real)
    requires threshold >= 0.5
    ensures forall i :: 0 <= i < |rows| ==> MapRow(priceList, rows[i], threshold).confidence != VeryLow
  {
    forall i | 0 <= i < |rows|
      ensures MapRow(priceList, rows[i], threshold).confidence != VeryLow
    {
      VeryLowUnreachable(priceList, rows[i], threshold);
    }
  }

  /** A row gets the no-match record exactly when no price-list entry reaches
      the threshold. */
  lemma NoMatchIff(priceList: seq<Candidate>, row: SourceRow, threshold: real)
    ensures MapRow(priceList, row, threshold).confidence == NoMatch
        <==> forall i :: 0 <= i < |priceList| ==> Score(row.description, priceList[i].description) < threshold
  {
    SelectSize(priceList, ScoresOf(row.description, priceList), TopN, threshold);
  }

  /** A matched row reports a real price-list entry, and its score is the
      highest score of any entry reaching the threshold. */
  lemma MatchedIsBest(priceList: seq<Candidate>, row: SourceRow, threshold: real, i: nat)
    requires i < |priceList|
    ensures var r := MapRow(priceList, row, threshold);
            Score(row.description, priceList[i].description) >= threshold ==>
            r.confidence != NoMatch
            && Score(row.description, priceList[i].description) <= r.score
            && exists j :: 0 <= j < |priceList|
                 && r.score == Score(row.description, priceList[j].description)
                 && r.matchedCode == priceList[j].code
                 && r.matchedDescription == priceList[j].description
                 && r.price == priceList[j].price
  {
    var scores := ScoresOf(row.description, priceList);
    if scores[i] >= threshold {
      FirstIsBest(priceList, scores, TopN, threshold, i);
      var matches := Select(priceList, scores, TopN, threshold);
      assert Faithful(priceList, scores, matches[0]);
      var j := matches[0].index;
      assert MapRow(priceList, row, threshold).score == Score(row.description, priceList[j].description);
    }
  }

  /** The number of alternatives is one less than the number of entries
      kept: every qualifying entry, up to five. */
  lemma AlternativesCount(priceList: seq<Candidate>, row: SourceRow, threshold: real)
    ensures var r := MapRow(priceList, row, threshold);
            var q := |Qualifying(priceList, ScoresOf(row.description, priceList), threshold)|;
            && (r.confidence != NoMatch ==> r.alternatives + 1 == Min(TopN, q))
            && (r.confidence == NoMatch ==> r.alternatives == 0 && q == 0)
  {
    SelectSize(priceList, ScoresOf(row.description, priceList), TopN, threshold);
  }

  /** With a threshold of at least 0.5 no row is labelled very low. */
  lemma VeryLowUnreachable(priceList: seq<Candidate>, row: SourceRow, threshold: real)
    requires threshold >= 0.5
    ensures MapRow(priceList, row, threshold).confidence != VeryLow
  {
    var r := MapRow(priceList, row, threshold);
    if r.confidence != NoMatch {
      ClassifyFromHalf(r.score);
    }
  }

  lemma ClassifyFromHalf(score: real)
    requires score >= 0.5
    ensures Classify(score) != VeryLow
  {
  }
}

=== FILE: matcher.dfy ===
/** `SBSMappingEngine.find_best_match`: score every candidate row against a
    source description, keep those at or above the threshold, stable-sort
    them by descending score and keep the first `top_n`. */
module Matcher {
  import opened Wrappers
  import opened Text
  import opened Similarity
  import opened Sorting

  /** A row of the target table: its code (missing when the code column is
      absent or the cell is empty), its description and its price. */
  datatype Candidate = Candidate(code: Cell, description: Cell, price: Option<real>)

  /** One entry of the result list: the row's position in the table, its
      score and the fields copied from the row. */
  datatype Match = Match(index: nat, score: real, description: Cell, code: Cell, price: Option<real>)

  /** The score of every candidate against the source description, in row
      order. */
  function ScoresOf(source: Cell, candidates: seq<Candidate>): (scores: seq<real>)
    ensures |scores| == |candidates|
    ensures forall i :: 0 <= i < |candidates| ==>
              scores[i] == Score(source, candidates[i].description) && 0.0 <= scores[i] <= 1.0
  {
    seq(|candidates|, i requires 0 <= i < |candidates| => Score(source, candidates[i].description))
  }

  /** The entry built for candidate `i`. */
  function MatchOf(candidates: seq<Candidate>, scores: seq<real>, i: nat): (m: Match)
    requires i < |candidates| == |scores|
  {
    Match(i, scores[i], candidates[i].description, candidates[i].code, candidates[i].price)
  }

  /** `m` is the unchanged entry of the candidate it names. */
  predicate Faithful(candidates: seq<Candidate>, scores: seq<real>, m: Match)
    requires |candidates| == |scores|
  {
    m.index < |candidates| && m == MatchOf(candidates, scores, m.index)
  }

  /** The loop over the rows from position `from` on: the entries of the
      qualifying rows, in row order. */
  function QualifyingFrom(candidates: seq<Candidate>, scores: seq<real>, threshold: real, from: nat): (r: seq<Match>)
    requires |candidates| == |scores| && from <= |candidates|
    ensures |r| <= |candidates| - from
    ensures forall k :: 0 <= k < |r| ==>
              from <= r[k].index && Faithful(candidates, scores, r[k]) && r[k].score >= threshold
    ensures forall i :: from <= i < |candidates| && scores[i] >= threshold ==>
              MatchOf(candidates, scores, i) in r
    ensures RankIncreasing(r, Position)
    decreases |candidates| - from
  {
    if from == |candidates| then []
    else
      var rest := QualifyingFrom(candidates, scores, threshold, from + 1);
      if scores[from] >= threshold then
        var m := MatchOf(candidates, scores, from);
        ConsIncreasing(m, rest);
        [m] + rest
      else rest
  }

  /** An entry whose row comes before every row of an increasing sequence
      can go in front of it. */
  lemma ConsIncreasing(m: Match, rest: seq<Match>)
    requires RankIncreasing(rest, Position)
    requires forall k :: 0 <= k < |rest| ==> m.index < rest[k].index
    ensures RankIncreasing([m] + rest, Position)
  {
    var r := [m] + rest;
    forall i, j | 0 <= i < j < |r| ensures Position(r[i]) < Position(r[j]) {
      assert r[j] == rest[j - 1];
      if i > 0 {
        assert r[i] == rest[i - 1];
      }
    }
  }

  /** The entries of all qualifying rows, in row order. */
  function Qualifying(candidates: seq<Candidate>, scores: seq<real>, threshold: real): (r: seq<Match>)
    requires |candidates| == |scores|
    ensures forall k :: 0 <= k < |r| ==> Faithful(candidates, scores, r[k]) && r[k].score >= threshold
    ensures forall i :: 0 <= i < |candidates| && scores[i] >= threshold ==> MatchOf(candidates, scores, i) in r
    ensures |r| == 0 <==> forall i :: 0 <= i < |candidates| ==> scores[i] < threshold
    ensures RankIncreasing(r, Position)
  {
    var r := QualifyingFrom(candidates, scores, threshold, 0);
    assert |r| > 0 ==> scores[r[0].index] >= threshold;
    r
  }

  function NegScore(m: Match): real {
    -m.score
  }

  function Position(m: Match): int {
    m.index
  }

  /** Python's `s[:n]`: a negative `n` counts from the end. */
  function TakeFirst<T>(s: seq<T>, n: int): (r: seq<T>)
    ensures |r| == if n >= 0 then Min(n, |s|) else Max(0, |s| + n)
    ensures r == s[..|r|]
  {
    if n >= 0 then s[..Min(n, |s|)] else s[..Max(0, |s| + n)]
  }

  /** `m` comes before `m'` in the result order: higher score first, and on
      equal scores the earlier row first. */
  predicate Precedes(m: Match, m': Match) {
    m.score > m'.score || (m.score == m'.score && m.index < m'.index)
  }

  /** The qualifying entries in result order: a permutation of them in
      which higher scores come first and equal scores keep row order. */
  function Ranked(candidates: seq<Candidate>, scores: seq<real>, threshold: real): (r: seq<Match>)
    requires |candidates| == |scores|
    ensures multiset(r) == multiset(Qualifying(candidates, scores, threshold))
    ensures forall k :: 0 <= k < |r| ==> Faithful(candidates, scores, r[k]) && r[k].score >= threshold
    ensures forall i, j :: 0 <= i < j < |r| ==> Precedes(r[i], r[j])
  {
    var q := Qualifying(candidates, scores, threshold);
    var sorted := SortBy(q, NegScore);
    SortStable(q, NegScore, Position);
    StableIsPrecedes(sorted);
    MembersOfPermutation(candidates, scores, threshold, q, sorted);
    sorted
  }

  /** Sorting on the negated score, stably in row position, is the result
      order. */
  lemma StableIsPrecedes(s: seq<Match>)
    requires StablySortedBy(s, NegScore, Position)
    ensures forall i, j :: 0 <= i < j < |s| ==> Precedes(s[i], s[j])
  {
    forall i, j | 0 <= i < j < |s| ensures Precedes(s[i], s[j]) {
      assert NegScore(s[i]) < NegScore(s[j])
          || (NegScore(s[i]) == NegScore(s[j]) && Position(s[i]) < Position(s[j]));
    }
  }

  lemma MembersOfPermutation(candidates: seq<Candidate>, scores: seq<real>, threshold: real, q: seq<Match>, s: seq<Match>)
    requires |candidates| == |scores|
    requires forall k :: 0 <= k < |q| ==> Faithful(candidates, scores, q[k]) && q[k].score >= threshold
    requires multiset(s) == multiset(q)
    ensures forall k :: 0 <= k < |s| ==> Faithful(candidates, scores, s[k]) && s[k].score >= threshold
  {
    forall k | 0 <= k < |s| ensures Faithful(candidates, scores, s[k]) && s[k].score >= threshold {
      assert s[k] in multiset(q);
    }
  }

  /** The selection step of `find_best_match` over given scores: the first
      `topN` ranked entries. */
  function Select(candidates: seq<Candidate>, scores: seq<real>, topN: int, threshold: real): (r: seq<Match>)
    requires |candidates| == |scores|
    ensures topN >= 0 ==> |r| <= topN
    ensures forall k :: 0 <= k < |r| ==> Faithful(candidates, scores, r[k]) && r[k].score >= threshold
    ensures forall i, j :: 0 <= i < j < |r| ==> Precedes(r[i], r[j])
  {
    TakeFirst(Ranked(candidates, scores, threshold), topN)
  }

  /** With room for at least one entry, the result is empty exactly when no
      candidate reaches the threshold, and otherwise it holds `topN` entries
      or every qualifying one. */
  lemma SelectSize(candidates: seq<Candidate>, scores: seq<real>, topN: int, threshold: real)
    requires |candidates| == |scores| && topN >= 1
    ensures var r := Select(candidates, scores, topN, threshold);
            |r| == Min(topN, |Qualifying(candidates, scores, threshold)|)
            && (|r| == 0 <==> forall i :: 0 <= i < |candidates| ==> scores[i] < threshold)
  {
  }

  /** A qualifying row that did not make the cut ranks after the last entry
      returned: it scores lower, or ties with it and comes later in the
      table. */
  lemma {:induction false} LeftOutRankLower(candidates: seq<Candidate>, scores: seq<real>, topN: int, threshold: real, i: nat)
    requires |candidates| == |scores| && i < |candidates| && scores[i] >= threshold
    requires var r := Select(candidates, scores, topN, threshold);
             forall k :: 0 <= k < |r| ==> r[k].index != i
    ensures var r := Select(candidates, scores, topN, threshold);
            |r| > 0 ==> Precedes(r[|r| - 1], MatchOf(candidates, scores, i))
  {
    var ranked := Ranked(candidates, scores, threshold);
    var r := Select(candidates, scores, topN, threshold);
    var p := RankedPosition(candidates, scores, threshold, i);
    assert r == ranked[..|r|];
    assert forall k :: 0 <= k < |r| ==> ranked[k] == r[k];
    NotInPrefix(ranked, |r|, p, i);
    if |r| > 0 {
      assert |r| - 1 < p;
      assert Precedes(ranked[|r| - 1], ranked[p]);
    }
  }

  /** Every qualifying row has an entry somewhere in the ranking. */
  lemma RankedPosition(candidates: seq<Candidate>, scores: seq<real>, threshold: real, i: nat) returns (p: nat)
    requires |candidates| == |scores| && i < |candidates| && scores[i] >= threshold
    ensures var ranked := Ranked(candidates, scores, threshold);
            p < |ranked| && ranked[p] == MatchOf(candidates, scores, i)
  {
    var ranked := Ranked(candidates, scores, threshold);
    var m := MatchOf(candidates, scores, i);
    assert m in multiset(Qualifying(candidates, scores, threshold));
    assert m in multiset(ranked);
    p :| 0 <= p < |ranked| && ranked[p] == m;
  }

  /** An entry whose row appears nowhere in the first `n` entries sits at
      position `n` or later. */
  lemma NotInPrefix(s: seq<Match>, n: nat, p: nat, i: nat)
    requires n <= |s| && p < |s| && s[p].index == i
    requires forall k :: 0 <= k < n ==> s[k].index != i
    ensures n <= p
  {
  }

  /** The first entry has the highest score of all qualifying rows. */
  lemma {:induction false} FirstIsBest(candidates: seq<Candidate>, scores: seq<real>, topN: int, threshold: real, i: nat)
    requires |candidates| == |scores| && i < |candidates| && scores[i] >= threshold
    requires topN >= 1
    ensures var r := Select(candidates, scores, topN, threshold);
            |r| > 0 && scores[i] <= r[0].score
  {
    var r := Select(candidates, scores, topN, threshold);
    SelectSize(candidates, scores, topN, threshold);
    if forall k :: 0 <= k < |r| ==> r[k].index != i {
      LeftOutRankLower(candidates, scores, topN, threshold, i);
      assert |r| == 1 || Precedes(r[0], r[|r| - 1]);
    } else {
      var k :| 0 <= k < |r| && r[k].index == i;
      assert k == 0 || Precedes(r[0], r[k]);
    }
  }

  /** `find_best_match`: the selection over the weighted similarity of each
      candidate's description to the source description. */
  function FindBestMatch(source: Cell, candidates: seq<Candidate>, topN: int, threshold: real): (r: seq<Match>)
    ensures topN >= 0 ==> |r| <= topN
    ensures forall k :: 0 <= k < |r| ==>
              r[k].index < |candidates| && r[k].score >= threshold
              && r[k].score == Score(source, candidates[r[k].index].description)
              && r[k].description == candidates[r[k].index].description
              && r[k].code == candidates[r[k].index].code
              && r[k].price == candidates[r[k].index].price
    ensures forall i, j :: 0 <= i < j < |r| ==> Precedes(r[i], r[j])
  {
    Select(candidates, ScoresOf(source, candidates), topN, threshold)
  }
}

=== FILE: similarity.dfy ===
/** `SimilarityCalculator`: the keyword Jaccard coefficient, the normalised
    Levenshtein similarity, their weighted blend and the code similarity.
    Scores are exact reals. */
module Similarity {
  import opened Wrappers
  import opened Text
  import opened Levenshtein

  /** The Jaccard default weight and the Levenshtein default weight. */
  const JaccardWeight: real := 0.4
  const LevenshteinWeight: real := 0.6

  /** Counting facts about intersection and union of finite sets. */
  lemma {:induction false} InterUnionCard(a: set<string>, b: set<string>)
    ensures |a * b| <= |a| <= |a + b|
    ensures |a * b| <= |b| <= |a + b|
    ensures |a * b| == |a + b| ==> a == b
  {
    assert |a + b| + |a * b| == |a| + |b|;
    assert |a - b| + |b - a| + |a * b| == |a + b|;
    if |a * b| == |a + b| {
      assert a - b == {} && b - a == {};
      forall x | x in a ensures x in b {
        assert x !in a - b;
      }
      forall x | x in b ensures x in a {
        assert x !in b - a;
      }
    }
  }

  /** The Jaccard coefficient of two keyword sets, with the source's guards:
      either set empty gives 0, and the union can then never be empty. */
  function SetJaccard(s1: set<string>, s2: set<string>): (r: real)
    ensures 0.0 <= r <= 1.0
    ensures s1 == {} || s2 == {} ==> r == 0.0
    ensures r == 0.0 <==> s1 * s2 == {}
    ensures r == 1.0 <==> s1 == s2 && s1 != {}
  {
    if s1 == {} || s2 == {} then 0.0
    else
      var intersection := |s1 * s2|;
      var union := |s1 + s2|;
      InterUnionCard(s1, s2);
      RatioBounds(intersection, union);
      if union > 0 then intersection as real / union as real else 0.0
  }

  /** `jaccard_similarity`: the Jaccard coefficient of the two keyword sets. */
  function Jaccard(text1: Cell, text2: Cell): (r: real)
    ensures 0.0 <= r <= 1.0
    ensures KeywordSet(text1) == {} || KeywordSet(text2) == {} ==> r == 0.0
    ensures r == 1.0 <==> KeywordSet(text1) == KeywordSet(text2) && KeywordSet(text1) != {}
  {
    SetJaccard(KeywordSet(text1), KeywordSet(text2))
  }

  /** Jaccard does not depend on argument order. */
  lemma JaccardSymmetric(text1: Cell, text2: Cell)
    ensures Jaccard(text1, text2) == Jaccard(text2, text1)
  {
    SetJaccardSymmetric(KeywordSet(text1), KeywordSet(text2));
  }

  lemma SetJaccardSymmetric(a: set<string>, b: set<string>)
    ensures SetJaccard(a, b) == SetJaccard(b, a)
  {
    assert a * b == b * a && a + b == b + a;
  }

  /** Repeating or reordering keywords does not change Jaccard: two texts
      whose keyword lists hold the same words, however often and in whatever
      order, score the same against any third text. */
  lemma JaccardDependsOnKeywordSet(text1: Cell, text2: Cell, text3: Cell)
    requires forall w :: w in ExtractKeywords(text1) <==> w in ExtractKeywords(text3)
    ensures Jaccard(text1, text2) == Jaccard(text3, text2)
  {
    assert KeywordSet(text1) == KeywordSet(text3);
  }

  /** `d / m` for `0 <= d <= m`, `m > 0`, lies in [0, 1] and hits 0 and 1
      exactly at `d == 0` and `d == m`. */
  lemma {:induction false} RatioBounds(d: nat, m: nat)
    requires 0 < m && d <= m
    ensures 0.0 <= d as real / m as real <= 1.0
    ensures d as real / m as real == 0.0 <==> d == 0
    ensures d as real / m as real == 1.0 <==> d == m
  {
    var q := d as real / m as real;
    assert q * m as real == d as real;
  }

  /** 1 - distance / longer length for two normalised texts, 0 when either is
      empty. */
  function LevenshteinRatio(n1: string, n2: string): (r: real)
    ensures 0.0 <= r <= 1.0
    ensures n1 == "" || n2 == "" ==> r == 0.0
    ensures n1 != "" && n2 != "" ==>
              r == 1.0 - EditDistance(n1, n2) as real / Max(|n1|, |n2|) as real
    ensures r == 1.0 <==> n1 == n2 && n1 != ""
  {
    if |n1| == 0 || |n2| == 0 then 0.0
    else
      var distance := EditDistance(n1, n2);
      var maxLen := Max(|n1|, |n2|);
      EditDistanceBounds(n1, n2);
      EditDistanceZeroIff(n1, n2);
      RatioBounds(distance, maxLen);
      if maxLen > 0 then 1.0 - distance as real / maxLen as real else 0.0
  }

  /** `normalized_levenshtein`: the ratio on the normalised texts. */
  function NormalizedLevenshtein(text1: Cell, text2: Cell): (r: real)
    ensures 0.0 <= r <= 1.0
    ensures Normalize(text1) == "" || Normalize(text2) == "" ==> r == 0.0
    ensures r == 1.0 <==> Normalize(text1) == Normalize(text2) && Normalize(text1) != ""
  {
    LevenshteinRatio(Normalize(text1), Normalize(text2))
  }

  lemma NormalizedLevenshteinSymmetric(text1: Cell, text2: Cell)
    ensures NormalizedLevenshtein(text1, text2) == NormalizedLevenshtein(text2, text1)
  {
    EditDistanceSymmetric(Normalize(text1), Normalize(text2));
  }

  /** `weighted_similarity`: with non-negative weights the blend lies between
      0 and the sum of the weights. */
  function Weighted(text1: Cell, text2: Cell, jaccardWeight: real, levenshteinWeight: real): (r: real)
    ensures 0.0 <= jaccardWeight && 0.0 <= levenshteinWeight ==>
              0.0 <= r <= jaccardWeight + levenshteinWeight
  {
    Blend(Jaccard(text1, text2), NormalizedLevenshtein(text1, text2), jaccardWeight, levenshteinWeight)
  }

  /** A weighted sum of two scores in [0, 1]. */
  function Blend(j: real, l: real, jw: real, lw: real): (r: real)
    requires 0.0 <= j <= 1.0 && 0.0 <= l <= 1.0
    ensures 0.0 <= jw && 0.0 <= lw ==> 0.0 <= r <= jw + lw
  {
    BlendBounds(j, l, jw, lw);
    jw * j + lw * l
  }

  lemma BlendBounds(j: real, l: real, jw: real, lw: real)
    requires 0.0 <= j <= 1.0 && 0.0 <= l <= 1.0
    ensures 0.0 <= jw && 0.0 <= lw ==> 0.0 <= jw * j + lw * l <= jw + lw
  {
    if 0.0 <= jw && 0.0 <= lw {
      ScaleBounds(jw, j);
      ScaleBounds(lw, l);
      AddLe(jw * j, lw * l, jw, lw);
      AddLe(0.0, 0.0, jw * j, lw * l);
    }
  }

  lemma ScaleBounds(w: real, x: real)
    requires 0.0 <= x <= 1.0
    requires 0.0 <= w
    ensures 0.0 <= w * x <= w
  {
    assert w * x <= w * 1.0;
  }

  lemma AddLe(a: real, b: real, c: real, d: real)
    requires a <= c && b <= d
    ensures a + b <= c + d
  {
  }

  /** The score the engine uses: the default 0.4/0.6 blend, always in [0, 1]. */
  function Score(text1: Cell, text2: Cell): (r: real)
    ensures 0.0 <= r <= 1.0
  {
    Weighted(text1, text2, JaccardWeight, LevenshteinWeight)
  }

  lemma WeightedSymmetric(text1: Cell, text2: Cell, jaccardWeight: real, levenshteinWeight: real)
    ensures Weighted(text1, text2, jaccardWeight, levenshteinWeight)
         == Weighted(text2, text1, jaccardWeight, levenshteinWeight)
  {
    JaccardSymmetric(text1, text2);
    NormalizedLevenshteinSymmetric(text1, text2);
  }

  /** Equal normalised texts have equal keyword sets. */
  lemma KeywordSetFromNormalized(text1: Cell, text2: Cell)
    ensures Normalize(text1) == Normalize(text2) ==> KeywordSet(text1) == KeywordSet(text2)
  {
    if Normalize(text1) == Normalize(text2) {
      assert ExtractKeywords(text1) == ExtractKeywords(text2);
    }
  }

  /** The default blend is a perfect 1 exactly when the two texts normalise to
      the same string and that string has at least one keyword. */
  lemma ScoreOneIff(text1: Cell, text2: Cell)
    ensures Score(text1, text2) == 1.0 <==>
              Normalize(text1) == Normalize(text2) && KeywordSet(text1) != {}
  {
    var j := Jaccard(text1, text2);
    var l := NormalizedLevenshtein(text1, text2);
    KeywordSetFromNormalized(text1, text2);
  }

  // ---- code similarity ----

  predicate IsPrefix(p: string, s: string) {
    |p| <= |s| && s[..|p|] == p
  }

  /** Python's `p in s` for strings: the empty string is in every string, and
      nothing is in a shorter string. */
  predicate IsSubstring(p: string, s: string): (b: bool)
    ensures |p| == 0 ==> b
    ensures b ==> |p| <= |s|
    decreases |s|
  {
    assert |p| == 0 ==> s[..|p|] == p;
    IsPrefix(p, s) || (|s| > 0 && IsSubstring(p, s[1..]))
  }

  /** `p` occurs in `s` starting at offset `k`. */
  predicate OccursAt(p: string, s: string, k: int) {
    0 <= k && k + |p| <= |s| && s[k..k + |p|] == p
  }

  /** `IsSubstring` agrees with the direct definition: `p` occurs at some
      offset of `s`. */
  lemma {:induction false} SubstringIff(p: string, s: string)
    ensures IsSubstring(p, s) <==> exists k :: OccursAt(p, s, k)
    decreases |s|
  {
    if IsPrefix(p, s) {
      assert OccursAt(p, s, 0);
    } else if |s| > 0 {
      SubstringIff(p, s[1..]);
      if IsSubstring(p, s[1..]) {
        var k :| OccursAt(p, s[1..], k);
        assert s[k + 1..k + 1 + |p|] == s[1..][k..k + |p|];
        assert OccursAt(p, s, k + 1);
      }
      if exists k :: OccursAt(p, s, k) {
        var k :| OccursAt(p, s, k);
        assert k != 0;
        assert s[1..][k - 1..k - 1 + |p|] == s[k..k + |p|];
        assert OccursAt(p, s[1..], k - 1);
      }
    }
  }

  /** The number of positions `i < n` where the two codes agree: at most
      `n`, and `n` exactly when the two length-`n` prefixes are equal. */
  function PositionalMatches(a: string, b: string, n: nat): (m: nat)
    requires n <= |a| && n <= |b|
    ensures m <= n
    ensures m == n <==> a[..n] == b[..n]
  {
    if n == 0 then 0
    else
      PrefixStep(a, b, n);
      PositionalMatches(a, b, n - 1) + (if a[n - 1] == b[n - 1] then 1 else 0)
  }

  /** Two length-`n` prefixes are equal exactly when the shorter prefixes
      and the last characters are. */
  lemma PrefixStep(a: string, b: string, n: nat)
    requires 0 < n <= |a| && n <= |b|
    ensures a[..n] == b[..n] <==> a[..n - 1] == b[..n - 1] && a[n - 1] == b[n - 1]
  {
    assert a[..n] == a[..n - 1] + [a[n - 1]] && b[..n] == b[..n - 1] + [b[n - 1]];
    if a[..n] == b[..n] {
      assert a[..n - 1] == a[..n][..n - 1];
      assert b[..n - 1] == b[..n][..n - 1];
      assert a[n - 1] == a[..n][n - 1];
    }
  }

  lemma {:induction false} PositionalMatchesSymmetric(a: string, b: string, n: nat)
    requires n <= |a| && n <= |b|
    ensures PositionalMatches(a, b, n) == PositionalMatches(b, a, n)
  {
    if n > 0 {
      PositionalMatchesSymmetric(a, b, n - 1);
    }
  }

  /** The score of two stripped codes: 1 when equal, 0.9 when one contains
      the other, and else the share of agreeing leading positions over the
      longer length, which is then below 1 and never a division by zero. */
  function CodeRatio(c1: string, c2: string): (r: real)
    ensures 0.0 <= r <= 1.0
    ensures r == 1.0 <==> c1 == c2
    ensures c1 != c2 && (IsSubstring(c1, c2) || IsSubstring(c2, c1)) ==> r == 0.9
    ensures !IsSubstring(c1, c2) && !IsSubstring(c2, c1) ==>
              r == PositionalMatches(c1, c2, Min(|c1|, |c2|)) as real / Max(|c1|, |c2|) as real
  {
    if c1 == c2 then 1.0
    else if IsSubstring(c1, c2) || IsSubstring(c2, c1) then 0.9
    else
      var minLen := Min(|c1|, |c2|);
      var matching := PositionalMatches(c1, c2, minLen);
      var maxLen := Max(|c1|, |c2|);
      CodeTailBound(c1, c2);
      RatioBounds(matching, maxLen);
      matching as real / maxLen as real
  }

  /** `code_similarity`: a missing code scores 0, otherwise the stripped
      codes are compared. */
  function CodeSimilarity(code1: Cell, code2: Cell): (r: real)
    ensures code1.None? || code2.None? ==> r == 0.0
    ensures 0.0 <= r <= 1.0
    ensures r == 1.0 <==> code1.Some? && code2.Some? && Strip(code1.value) == Strip(code2.value)
  {
    if code1.None? || code2.None? then 0.0
    else CodeRatio(Strip(code1.value), Strip(code2.value))
  }

  /** When neither code contains the other, both are non-empty and they agree
      at fewer positions than the longer length, so the quotient is defined
      and below 1. */
  lemma CodeTailBound(c1: string, c2: string)
    requires c1 != c2 && !IsSubstring(c1, c2) && !IsSubstring(c2, c1)
    ensures Max(|c1|, |c2|) > 0
    ensures PositionalMatches(c1, c2, Min(|c1|, |c2|)) < Max(|c1|, |c2|)
  {
    AllMatchContains(c1, c2);
  }

  /** Codes agreeing at every position of the shorter one are one a prefix,
      hence a substring, of the other. */
  lemma AllMatchContains(c1: string, c2: string)
    ensures var n := Min(|c1|, |c2|);
            PositionalMatches(c1, c2, n) == n ==> IsSubstring(c1, c2) || IsSubstring(c2, c1)
  {
    var n := Min(|c1|, |c2|);
    if PositionalMatches(c1, c2, n) == n {
      if |c1| <= |c2| {
        assert c1[..n] == c1;
        assert IsPrefix(c1, c2);
      } else {
        assert c2[..n] == c2;
        assert IsPrefix(c2, c1);
      }
    }
  }

  lemma CodeSimilaritySymmetric(code1: Cell, code2: Cell)
    ensures CodeSimilarity(code1, code2) == CodeSimilarity(code2, code1)
  {
    if code1.Some? && code2.Some? {
      CodeRatioSymmetric(Strip(code1.value), Strip(code2.value));
    }
  }

  lemma CodeRatioSymmetric(c1: string, c2: string)
    ensures CodeRatio(c1, c2) == CodeRatio(c2, c1)
  {
    PositionalMatchesSymmetric(c1, c2, Min(|c1|, |c2|));
  }

  /** An empty stripped code against a different non-missing code scores 0.9:
      the empty string is contained in every string. */
  lemma CodeSimilarityEmpty(code1: Cell, code2: Cell)
    requires code1.Some? && code2.Some?
    requires Strip(code1.value) == "" && Strip(code2.value) != ""
    ensures CodeSimilarity(code1, code2) == 0.9
  {
    assert CodeSimilarity(code1, code2) == CodeRatio("", Strip(code2.value));
  }
}

=== FILE: sorting.dfy ===
/** A stable insertion sort on a real-valued key, the model of Python's
    `list.sort`: the result is ascending in the key and elements with equal
    keys keep their input order. A descending sort is the same sort on the
    negated key. */
module Sorting {

  /** Ascending in `key`. */
  predicate SortedBy<T>(s: seq<T>, key: T -> real) {
    forall i, j :: 0 <= i < j < |s| ==> key(s[i]) <= key(s[j])
  }

  /** Ascending in `key`, and among equal keys ascending in `rank`: the order
      a stable sort leaves when `rank` is the position in the input. */
  predicate StablySortedBy<T>(s: seq<T>, key: T -> real, rank: T -> int) {
    forall i, j :: 0 <= i < j < |s| ==>
      key(s[i]) < key(s[j]) || (key(s[i]) == key(s[j]) && rank(s[i]) < rank(s[j]))
  }

  /** `rank` strictly increases along `s`. */
  predicate RankIncreasing<T>(s: seq<T>, rank: T -> int) {
    forall i, j :: 0 <= i < j < |s| ==> rank(s[i]) < rank(s[j])
  }

  /** Places `x` before the first element whose key is at least its own. */
  function Insert<T>(x: T, s: seq<T>, key: T -> real): (r: seq<T>)
    requires SortedBy(s, key)
    ensures |r| == |s| + 1
    ensures multiset(r) == multiset(s) + multiset{x}
    ensures r[0] == x || (|s| > 0 && r[0] == s[0])
    ensures SortedBy(r, key)
  {
    if |s| == 0 || key(x) <= key(s[0]) then
      SortedCons(x, s, key);
      [x] + s
    else
      var rest := Insert(x, s[1..], key);
      assert s == [s[0]] + s[1..];
      SortedCons(s[0], rest, key);
      [s[0]] + rest
  }

  /** Putting an element no larger than the head in front keeps a sequence
      sorted. */
  lemma SortedCons<T>(y: T, s: seq<T>, key: T -> real)
    requires SortedBy(s, key)
    requires |s| > 0 ==> key(y) <= key(s[0])
    ensures SortedBy([y] + s, key)
  {
    var r := [y] + s;
    forall i, j | 0 <= i < j < |r| ensures key(r[i]) <= key(r[j]) {
      if i == 0 {
        assert r[j] == s[j - 1];
      } else {
        assert r[i] == s[i - 1] && r[j] == s[j - 1];
      }
    }
  }

  /** The stable sort: each element is inserted ahead of the equal-keyed
      elements that follow it in the input. */
  function SortBy<T>(s: seq<T>, key: T -> real): (r: seq<T>)
    ensures |r| == |s|
    ensures multiset(r) == multiset(s)
    ensures SortedBy(r, key)
  {
    if |s| == 0 then []
    else
      assert s == [s[0]] + s[1..];
      Insert(s[0], SortBy(s[1..], key), key)
  }

  /** Inserting an element whose rank is below every other rank keeps the
      order stable. */
  lemma {:induction false} InsertStable<T>(x: T, s: seq<T>, key: T -> real, rank: T -> int)
    requires SortedBy(s, key) && StablySortedBy(s, key, rank)
    requires forall k :: 0 <= k < |s| ==> rank(x) < rank(s[k])
    ensures StablySortedBy(Insert(x, s, key), key, rank)
  {
    if |s| > 0 && key(s[0]) < key(x) {
      InsertStable(x, s[1..], key, rank);
    }
  }

  /** When the input's ranks increase, the sorted output is stable. */
  lemma {:induction false} SortStable<T>(s: seq<T>, key: T -> real, rank: T -> int)
    requires RankIncreasing(s, rank)
    ensures StablySortedBy(SortBy(s, key), key, rank)
  {
    if |s| > 0 {
      var sorted := SortBy(s[1..], key);
      SortStable(s[1..], key, rank);
      forall k | 0 <= k < |sorted| ensures rank(s[0]) < rank(sorted[k]) {
        assert sorted[k] in multiset(s[1..]);
        var m :| 0 <= m < |s[1..]| && s[1..][m] == sorted[k];
        assert s[m + 1] == sorted[k];
      }
      InsertStable(s[0], sorted, key, rank);
    }
  }
}

=== FILE: text.dfy ===
/** The text normaliser (`TextNormalizer` in sbs_ai_mapping_system.py).

    `normalize` lowercases, replaces every character outside `[a-z0-9\s]` by a
    space, collapses whitespace runs to one space and strips both ends;
    `extract_keywords` splits the result on whitespace and keeps the tokens
    that are not stop words and are longer than two characters. */
module Text {
  import opened Wrappers

  /** A spreadsheet cell holding text: `None` stands for Python's None and pandas' NaN. */
  type Cell = Option<string>

  /** The code points for which Python's `str.isspace()` holds, as inclusive
      ranges; `\s` in a `str` pattern matches exactly these. */
  const SpaceRanges: seq<(int, int)> := [
    (0x09, 0x0D), (0x1C, 0x20), (0x85, 0x85), (0xA0, 0xA0), (0x1680, 0x1680),
    (0x2000, 0x200A), (0x2028, 0x2029), (0x202F, 0x202F), (0x205F, 0x205F), (0x3000, 0x3000)
  ]

  predicate InRanges(n: int, ranges: seq<(int, int)>) {
    |ranges| > 0 && ((ranges[0].0 <= n <= ranges[0].1) || InRanges(n, ranges[1..]))
  }

  /** Python's `str.isspace()` on one character. */
  predicate IsSpace(c: char) {
    InRanges(c as int, SpaceRanges)
  }

  /** The characters the normaliser keeps: `[a-z0-9]`. */
  predicate IsWordChar(c: char) {
    ('a' <= c <= 'z') || ('0' <= c <= '9')
  }

  lemma {:induction false} NotInRanges(n: int, ranges: seq<(int, int)>)
    requires forall k :: 0 <= k < |ranges| ==> n < ranges[k].0 || ranges[k].1 < n
    ensures !InRanges(n, ranges)
    decreases |ranges|
  {
    if |ranges| > 0 {
      NotInRanges(n, ranges[1..]);
    }
  }

  /** The space is whitespace, and no kept character is. */
  lemma SpaceFacts()
    ensures IsSpace(' ')
    ensures forall c :: IsWordChar(c) ==> !IsSpace(c)
  {
    assert InRanges(' ' as int, SpaceRanges[1..]);
    forall c | IsWordChar(c)
      ensures !IsSpace(c)
    {
      NotInRanges(c as int, SpaceRanges);
    }
  }

  /** `str.lower()` on one character, restricted to the ASCII letters. */
  function Lower(c: char): char {
    if 'A' <= c <= 'Z' then (c as int - 'A' as int + 'a' as int) as char else c
  }

  /** `str.lower()` restricted to the ASCII letters: no ASCII capital
      survives, each one becomes its small letter, and every other character
      is kept. */
  function LowerAll(s: string): (r: string)
    ensures |r| == |s|
    ensures forall i :: 0 <= i < |s| ==> r[i] == Lower(s[i])
    ensures forall i :: 0 <= i < |r| ==> !('A' <= r[i] <= 'Z')
    ensures forall i :: 0 <= i < |s| && 'A' <= s[i] <= 'Z' ==> r[i] as int == s[i] as int + 32
    ensures forall i :: 0 <= i < |s| && !('A' <= s[i] <= 'Z') ==> r[i] == s[i]
  {
    seq(|s|, i requires 0 <= i < |s| => Lower(s[i]))
  }

  /** `re.sub(r'[^a-z0-9\s]', ' ', text)`. */
  function Scrub(s: string): (r: string)
    ensures |r| == |s|
    ensures forall i :: 0 <= i < |s| ==> r[i] == (if IsWordChar(s[i]) || IsSpace(s[i]) then s[i] else ' ')
    ensures Scrubbed(r)
  {
    seq(|s|, i requires 0 <= i < |s| => if IsWordChar(s[i]) || IsSpace(s[i]) then s[i] else ' ')
  }

  /** Every character is whitespace or kept by the normaliser. */
  predicate Scrubbed(s: string) {
    forall i :: 0 <= i < |s| ==> IsSpace(s[i]) || IsWordChar(s[i])
  }

  /** The number of leading whitespace characters. */
  function LeadingSpaces(s: string): (n: nat)
    ensures n <= |s|
    ensures n == |s| || !IsSpace(s[n])
    ensures |s| > 0 && IsSpace(s[0]) ==> n > 0
  {
    if |s| > 0 && IsSpace(s[0]) then 1 + LeadingSpaces(s[1..]) else 0
  }

  /** Drops the leading whitespace (`str.lstrip()`). */
  function SkipSpaces(s: string): string {
    s[LeadingSpaces(s)..]
  }

  /** The length of `s` without its trailing whitespace. */
  function TrimmedLength(s: string): (n: nat)
    ensures n <= |s|
    ensures n == 0 || !IsSpace(s[n - 1])
  {
    if |s| > 0 && IsSpace(s[|s| - 1]) then TrimmedLength(s[..|s| - 1]) else |s|
  }

  /** Drops the trailing whitespace (`str.rstrip()`). */
  function TrimEnd(s: string): string {
    s[..TrimmedLength(s)]
  }

  /** Only whitespace surrounds `r` inside `s`, starting at offset `k`. */
  predicate StrippedAt(s: string, r: string, k: nat) {
    && k + |r| <= |s|
    && s[k..k + |r|] == r
    && (forall i :: 0 <= i < k ==> IsSpace(s[i]))
    && (forall i :: k + |r| <= i < |s| ==> IsSpace(s[i]))
  }

  /** `str.strip()`. */
  function Strip(s: string): string {
    TrimEnd(SkipSpaces(s))
  }

  /** `str.strip()` removes exactly the leading and trailing whitespace: the
      result sits inside the text with only whitespace around it, and neither
      starts nor ends with whitespace. */
  lemma StripIff(s: string)
    ensures exists k :: StrippedAt(s, Strip(s), k)
    ensures var r := Strip(s); |r| == 0 || (!IsSpace(r[0]) && !IsSpace(r[|r| - 1]))
  {
    StripSurrounded(s);
    assert StrippedAt(s, Strip(s), LeadingSpaces(s));
  }

  lemma {:induction false} LeadingAllSpace(s: string)
    ensures forall i :: 0 <= i < LeadingSpaces(s) ==> IsSpace(s[i])
  {
    if |s| > 0 && IsSpace(s[0]) {
      LeadingAllSpace(s[1..]);
      assert forall i :: 1 <= i < LeadingSpaces(s) ==> s[i] == s[1..][i - 1];
    }
  }

  lemma {:induction false} TrailingAllSpace(s: string)
    ensures forall i :: TrimmedLength(s) <= i < |s| ==> IsSpace(s[i])
  {
    if |s| > 0 && IsSpace(s[|s| - 1]) {
      var t := s[..|s| - 1];
      TrailingAllSpace(t);
      assert TrimmedLength(s) == TrimmedLength(t);
      assert forall i :: 0 <= i < |t| ==> t[i] == s[i];
    }
  }

  lemma StripSurrounded(s: string)
    ensures StrippedAt(s, TrimEnd(SkipSpaces(s)), LeadingSpaces(s))
  {
    var k := LeadingSpaces(s);
    var u := SkipSpaces(s);
    var n := TrimmedLength(u);
    LeadingAllSpace(s);
    TrailingAllSpace(u);
    assert u[..n] == s[k..k + n];
    forall i | k + n <= i < |s|
      ensures IsSpace(s[i])
    {
      assert s[i] == u[i - k] && n <= i - k < |u|;
    }
  }

  /** `re.sub(r'\s+', ' ', text)`: every maximal whitespace run becomes one space. */
  function Collapse(s: string): (r: string)
    ensures |s| == 0 <==> |r| == 0
    ensures |s| > 0 && !IsSpace(s[0]) ==> r[0] == s[0]
    ensures |s| > 0 && IsSpace(s[0]) ==> r[0] == ' '
    ensures NoDoubleSpace(r)
    ensures Scrubbed(s) ==> forall i :: 0 <= i < |r| ==> r[i] == ' ' || IsWordChar(r[i])
    decreases |s|
  {
    if |s| == 0 then []
    else if IsSpace(s[0]) then [' '] + Collapse(SkipSpaces(s))
    else [s[0]] + Collapse(s[1..])
  }

  /** No two adjacent spaces. */
  predicate NoDoubleSpace(s: string) {
    forall i, j :: 0 <= i < |s| && 0 <= j < |s| && j == i + 1 ==> s[i] != ' ' || s[j] != ' '
  }

  /** The shape of every normalised text: only `a-z`, `0-9` and single
      interior spaces, nothing at either end. */
  predicate IsCanonical(s: string) {
    && (forall i :: 0 <= i < |s| ==> s[i] == ' ' || IsWordChar(s[i]))
    && NoDoubleSpace(s)
    && (|s| > 0 ==> s[0] != ' ' && s[|s| - 1] != ' ')
  }

  lemma StripCanonical(s: string)
    requires forall i :: 0 <= i < |s| ==> s[i] == ' ' || IsWordChar(s[i])
    requires NoDoubleSpace(s)
    ensures IsCanonical(Strip(s))
  {
    var u := SkipSpaces(s);
    var off := |s| - |u|;
    var v := TrimEnd(u);
    assert forall i :: 0 <= i < |v| ==> v[i] == s[off + i];
  }

  /** `TextNormalizer.normalize` on a text cell. */
  function NormalizeText(s: string): string {
    Strip(Collapse(Scrub(LowerAll(s))))
  }

  lemma NormalizeTextCanonical(s: string)
    ensures IsCanonical(NormalizeText(s))
  {
    StripCanonical(Collapse(Scrub(LowerAll(s))));
  }

  /** `TextNormalizer.normalize`: a missing cell gives the empty string. */
  function Normalize(cell: Cell): (r: string)
    ensures cell.None? ==> r == ""
    ensures IsCanonical(r)
  {
    match cell
    case None => ""
    case Some(s) => NormalizeTextCanonical(s); NormalizeText(s)
  }

  lemma {:induction false} CollapseFixed(s: string)
    requires forall i :: 0 <= i < |s| ==> s[i] == ' ' || IsWordChar(s[i])
    requires NoDoubleSpace(s)
    ensures Collapse(s) == s
    decreases |s|
  {
    if |s| > 0 {
      SpaceFacts();
      var t := s[1..];
      NoDoubleSpaceTail(s);
      assert forall i :: 0 <= i < |t| ==> t[i] == s[i + 1];
      CollapseFixed(t);
      if s[0] == ' ' {
        if |s| > 1 {
          assert s[1] != ' ';
          assert IsWordChar(s[1]);
        }
        CollapseSpaceHead(s);
      } else {
        CollapseWordHead(s);
      }
    }
  }

  lemma CollapseSpaceHead(s: string)
    requires |s| > 0 && s[0] == ' ' && (|s| == 1 || !IsSpace(s[1]))
    requires Collapse(s[1..]) == s[1..]
    ensures Collapse(s) == s
  {
    SpaceFacts();
    assert LeadingSpaces(s[1..]) == 0;
    assert SkipSpaces(s) == s[1..];
    assert s == [' '] + s[1..];
  }

  lemma CollapseWordHead(s: string)
    requires |s| > 0 && !IsSpace(s[0])
    requires Collapse(s[1..]) == s[1..]
    ensures Collapse(s) == s
  {
    assert s == [s[0]] + s[1..];
  }

  lemma NoDoubleSpaceTail(s: string)
    requires |s| > 0 && NoDoubleSpace(s)
    ensures NoDoubleSpace(s[1..])
  {
    var t := s[1..];
    forall i, j | 0 <= i < |t| && 0 <= j < |t| && j == i + 1 ensures t[i] != ' ' || t[j] != ' ' {
      assert t[i] == s[i + 1] && t[j] == s[j + 1];
    }
  }

  lemma LowerFixed(s: string)
    requires forall i :: 0 <= i < |s| ==> s[i] == ' ' || IsWordChar(s[i])
    ensures LowerAll(s) == s
  {
    assert forall i :: 0 <= i < |s| ==> Lower(s[i]) == s[i];
  }

  lemma ScrubFixed(s: string)
    requires forall i :: 0 <= i < |s| ==> s[i] == ' ' || IsWordChar(s[i])
    ensures Scrub(s) == s
  {
    assert forall i :: 0 <= i < |s| ==> IsWordChar(s[i]) || IsSpace(s[i]);
  }

  lemma PipelineFixed(s: string)
    requires IsCanonical(s)
    ensures Collapse(Scrub(LowerAll(s))) == s
  {
    LowerFixed(s);
    ScrubFixed(s);
    CollapseFixed(s);
  }

  lemma StripFixed(s: string)
    requires IsCanonical(s)
    ensures Strip(s) == s
  {
    SpaceFacts();
    assert SkipSpaces(s) == s;
  }

  /** A canonical text is a fixed point of the normaliser. */
  lemma CanonicalIsFixedPoint(s: string)
    requires IsCanonical(s)
    ensures NormalizeText(s) == s
  {
    PipelineFixed(s);
    StripFixed(s);
  }

  /** Normalising twice is normalising once. */
  lemma NormalizeIdempotent(cell: Cell)
    ensures Normalize(Some(Normalize(cell))) == Normalize(cell)
  {
    CanonicalIsFixedPoint(Normalize(cell));
  }

  /** A token: no whitespace inside. */
  predicate NoSpace(w: string) {
    forall i :: 0 <= i < |w| ==> !IsSpace(w[i])
  }

  /** A token of a normalised text: only `a-z` and `0-9`. */
  predicate AllWordChars(w: string) {
    forall i :: 0 <= i < |w| ==> IsWordChar(w[i])
  }

  /** The length of the longest whitespace-free prefix. */
  function WordLength(s: string): (n: nat)
    ensures n <= |s|
    ensures forall i :: 0 <= i < n ==> !IsSpace(s[i])
    ensures n == |s| || IsSpace(s[n])
  {
    if |s| == 0 || IsSpace(s[0]) then 0 else 1 + WordLength(s[1..])
  }

  /** `str.split()` with no separator: the maximal whitespace-free runs. */
  function Split(s: string): (r: seq<string>)
    ensures forall k :: 0 <= k < |r| ==> |r[k]| > 0 && NoSpace(r[k])
    decreases |s|
  {
    var t := SkipSpaces(s);
    if |t| == 0 then []
    else
      var n := WordLength(t);
      assert 0 < n && |t[n..]| < |s|;
      var w := t[..n];
      assert NoSpace(w);
      [w] + Split(t[n..])
  }

  /** `' '.join(words)`. */
  function JoinWords(ws: seq<string>): string {
    if |ws| == 0 then ""
    else if |ws| == 1 then ws[0]
    else ws[0] + " " + JoinWords(ws[1..])
  }

  /** The tokens of a text without foreign characters hold only `a-z` and `0-9`. */
  lemma {:induction false} SplitWordChars(s: string)
    requires Scrubbed(s)
    ensures forall k :: 0 <= k < |Split(s)| ==> AllWordChars(Split(s)[k])
    decreases |s|
  {
    var t := SkipSpaces(s);
    if |t| > 0 {
      var w := t[..WordLength(t)];
      var rest := t[|w|..];
      assert Scrubbed(t);
      assert AllWordChars(w);
      assert Scrubbed(rest);
      SplitWordChars(rest);
      var r := Split(s);
      assert r == [w] + Split(rest);
      forall k | 0 <= k < |r|
        ensures AllWordChars(r[k])
      {
        if k > 0 {
          assert r[k] == Split(rest)[k - 1];
        }
      }
    } else {
      assert Split(s) == [];
    }
  }

  /** After the first token of a canonical text and its one separating
      space, what remains is again canonical. */
  lemma CanonicalRest(s: string, n: nat)
    requires IsCanonical(s)
    requires n < |s| && s[n] == ' '
    ensures 0 < n + 1 < |s|
    ensures IsCanonical(s[n + 1..])
  {
    var rest := s[n + 1..];
    assert forall i :: 0 <= i < |rest| ==> rest[i] == s[n + 1 + i];
  }

  lemma JoinCons(w: string, ws: seq<string>)
    requires |ws| > 0
    ensures JoinWords([w] + ws) == w + " " + JoinWords(ws)
  {
    assert ([w] + ws)[1..] == ws;
  }

  lemma Around(s: string, n: nat)
    requires n < |s|
    ensures s == s[..n] + [s[n]] + s[n + 1..]
  {
  }

  lemma SplitWordFirst(s: string)
    requires |s| > 0 && !IsSpace(s[0])
    ensures Split(s) == [s[..WordLength(s)]] + Split(s[WordLength(s)..])
  {
    assert SkipSpaces(s) == s;
  }

  lemma SplitSkipOne(t: string)
    requires |t| > 1 && IsSpace(t[0]) && !IsSpace(t[1])
    ensures Split(t) == Split(t[1..])
  {
    assert LeadingSpaces(t[1..]) == 0;
    assert LeadingSpaces(t) == 1;
    assert SkipSpaces(t) == t[1..] == SkipSpaces(t[1..]);
  }

  /** A non-empty canonical text splits into its first word and the
      tokens of what follows the first space. */
  lemma SplitCanonicalStep(s: string)
    requires IsCanonical(s) && |s| > 0
    ensures var n := WordLength(s);
      && 0 < n
      && (n == |s| ==> Split(s) == [s])
      && (n < |s| ==> s[n] == ' ' && 0 < n + 1 < |s| && IsCanonical(s[n + 1..])
                       && Split(s) == [s[..n]] + Split(s[n + 1..])
                       && s == s[..n] + " " + s[n + 1..])
  {
    SpaceFacts();
    var n := WordLength(s);
    if n < |s| {
      SplitCanonicalMore(s, n);
    } else {
      SplitCanonicalLast(s);
    }
  }

  /** A canonical text that is one word splits into itself. */
  lemma SplitCanonicalLast(s: string)
    requires |s| > 0 && !IsSpace(s[0]) && WordLength(s) == |s|
    ensures Split(s) == [s]
  {
    SplitWordFirst(s);
    assert s[..|s|] == s;
    assert s[|s|..] == [];
    assert SkipSpaces([]) == [];
  }

  /** A canonical text with a space at `n`, the end of its first word, splits
      into that word and the tokens after the space. */
  lemma SplitCanonicalMore(s: string, n: nat)
    requires IsCanonical(s) && |s| > 0 && n == WordLength(s) < |s|
    ensures s[n] == ' ' && 0 < n + 1 < |s| && IsCanonical(s[n + 1..])
    ensures Split(s) == [s[..n]] + Split(s[n + 1..])
    ensures s == s[..n] + " " + s[n + 1..]
  {
    SpaceFacts();
    assert s[n] == ' ';
    CanonicalRest(s, n);
    var t := s[n..];
    assert s[n + 1..][0] == s[n + 1] != ' ';
    assert IsWordChar(s[n + 1]);
    assert t[1..] == s[n + 1..] && t[0] == ' ' && t[1] == s[n + 1];
    SplitSkipOne(t);
    SplitWordFirst(s);
    Around(s, n);
  }

  /** A normalised text is exactly its tokens joined by single spaces, so
      splitting it loses nothing. */
  lemma {:induction false} SplitJoinCanonical(s: string)
    requires IsCanonical(s)
    ensures JoinWords(Split(s)) == s
    decreases |s|
  {
    if |s| > 0 {
      SplitCanonicalStep(s);
      var n := WordLength(s);
      if n < |s| {
        var rest := s[n + 1..];
        SplitJoinCanonical(rest);
        assert |Split(rest)| > 0;
        JoinCons(s[..n], Split(rest));
      }
    }
  }

  /** Leading whitespace does not change the tokens. */
  lemma SplitSkipSpaces(s: string)
    ensures Split(SkipSpaces(s)) == Split(s)
  {
    assert LeadingSpaces(SkipSpaces(s)) == 0;
  }

  /** A whitespace character in front does not change the tokens. */
  lemma SplitSpaceCons(c: char, x: string)
    requires IsSpace(c)
    ensures Split([c] + x) == Split(x)
  {
    assert ([c] + x)[1..] == x;
    assert SkipSpaces([c] + x) == SkipSpaces(x);
  }

  /** A word character followed by the end or by whitespace is a token of
      its own. */
  lemma SplitAloneHead(s: string)
    requires |s| > 0 && !IsSpace(s[0])
    requires |s| == 1 || IsSpace(s[1])
    ensures Split(s) == [[s[0]]] + Split(s[1..])
  {
    assert WordLength(s[1..]) == 0;
    SplitWordFirst(s);
    assert s[..1] == [s[0]];
  }

  /** A word character followed by another one starts the first token of
      the rest. */
  lemma SplitJoinHead(s: string)
    requires |s| > 1 && !IsSpace(s[0]) && !IsSpace(s[1])
    ensures |Split(s[1..])| > 0
    ensures Split(s) == [[s[0]] + Split(s[1..])[0]] + Split(s[1..])[1..]
  {
    var x := s[1..];
    var n := WordLength(x);
    assert WordLength(s) == 1 + n;
    SplitWordFirst(x);
    var sx := Split(x);
    assert |sx| > 0 && sx[0] == x[..n];
    assert sx[1..] == Split(x[n..]);
    SplitWordFirst(s);
    HeadSlices(s, n);
    assert Split(s) == [s[..1 + n]] + Split(s[1 + n..]);
  }

  /** Splitting `s` after its first character and `n` more. */
  lemma HeadSlices(s: string, n: nat)
    requires 1 + n <= |s|
    ensures s[..1 + n] == [s[0]] + s[1..][..n]
    ensures s[1 + n..] == s[1..][n..]
  {
  }

  /** `re.sub(r'\s+', ' ', text)` keeps the tokens. */
  lemma {:induction false} SplitCollapse(s: string)
    ensures Split(Collapse(s)) == Split(s)
    decreases |s|
  {
    if |s| > 0 {
      if IsSpace(s[0]) {
        SplitCollapse(SkipSpaces(s));
        SplitCollapseSpace(s);
      } else {
        SplitCollapse(s[1..]);
        SplitCollapseWord(s);
      }
    }
  }

  lemma SplitCollapseSpace(s: string)
    requires |s| > 0 && IsSpace(s[0])
    requires Split(Collapse(SkipSpaces(s))) == Split(SkipSpaces(s))
    ensures Split(Collapse(s)) == Split(s)
  {
    var t := SkipSpaces(s);
    assert Collapse(s) == [' '] + Collapse(t);
    SpaceFacts();
    SplitSpaceCons(' ', Collapse(t));
    SplitSkipSpaces(s);
  }

  lemma SplitCollapseWord(s: string)
    requires |s| > 0 && !IsSpace(s[0])
    requires Split(Collapse(s[1..])) == Split(s[1..])
    ensures Split(Collapse(s)) == Split(s)
  {
    var t := Collapse(s);
    assert t == [s[0]] + Collapse(s[1..]);
    assert t[1..] == Collapse(s[1..]);
    if |s| > 1 && !IsSpace(s[1]) {
      assert t[1] == s[1];
      SplitJoinHead(s);
      SplitJoinHead(t);
    } else {
      SpaceFacts();
      assert |t| == 1 || t[1] == ' ';
      SplitAloneHead(s);
      SplitAloneHead(t);
    }
  }



  lemma {:induction false} LeadingSpacesSnoc(x: string, c: char)
    requires LeadingSpaces(x) < |x|
    ensures LeadingSpaces(x + [c]) == LeadingSpaces(x)
    ensures SkipSpaces(x + [c]) == SkipSpaces(x) + [c]
  {
    if IsSpace(x[0]) {
      assert (x + [c])[1..] == x[1..] + [c];
      LeadingSpacesSnoc(x[1..], c);
    }
  }

  lemma {:induction false} LeadingSpacesAll(x: string, c: char)
    requires LeadingSpaces(x) == |x| && IsSpace(c)
    ensures LeadingSpaces(x + [c]) == |x| + 1
  {
    if |x| > 0 {
      assert (x + [c])[1..] == x[1..] + [c];
      LeadingSpacesAll(x[1..], c);
    } else {
      assert x + [c] == [c];
    }
  }

  lemma {:induction false} WordLengthSnoc(t: string, c: char)
    requires IsSpace(c)
    ensures WordLength(t + [c]) == WordLength(t)
  {
    if |t| > 0 && !IsSpace(t[0]) {
      assert (t + [c])[1..] == t[1..] + [c];
      WordLengthSnoc(t[1..], c);
    }
  }

  /** A whitespace character at the end does not change the tokens. */
  lemma {:induction false} SplitSpaceSnoc(x: string, c: char)
    requires IsSpace(c)
    ensures Split(x + [c]) == Split(x)
    decreases |x|
  {
    if LeadingSpaces(x) == |x| {
      LeadingSpacesAll(x, c);
    } else {
      LeadingSpacesSnoc(x, c);
      var t := SkipSpaces(x);
      var n := WordLength(t);
      WordLengthSnoc(t, c);
      assert (t + [c])[..n] == t[..n];
      assert (t + [c])[n..] == t[n..] + [c];
      SplitSpaceSnoc(t[n..], c);
    }
  }

  /** Trailing whitespace does not change the tokens. */
  lemma {:induction false} SplitTrimEnd(s: string)
    ensures Split(TrimEnd(s)) == Split(s)
    decreases |s|
  {
    TrimEndStep(s);
    if |s| > 0 && IsSpace(s[|s| - 1]) {
      var x := s[..|s| - 1];
      SplitTrimEnd(x);
      SplitSpaceSnoc(x, s[|s| - 1]);
    }
  }

  lemma TrimEndStep(s: string)
    ensures |s| > 0 && IsSpace(s[|s| - 1]) ==>
              TrimEnd(s) == TrimEnd(s[..|s| - 1]) && s == s[..|s| - 1] + [s[|s| - 1]]
    ensures !(|s| > 0 && IsSpace(s[|s| - 1])) ==> TrimEnd(s) == s
  {
    if !(|s| > 0 && IsSpace(s[|s| - 1])) {
      assert s[..|s|] == s;
    }
  }

  /** Normalising a text keeps its tokens: they are the whitespace-separated
      runs of the lowercased text with every foreign character blanked. */
  lemma NormalizeKeepsWords(s: string)
    ensures Split(Normalize(Some(s))) == Split(Scrub(LowerAll(s)))
  {
    var c := Collapse(Scrub(LowerAll(s)));
    SplitCollapse(Scrub(LowerAll(s)));
    SplitSkipSpaces(c);
    SplitTrimEnd(SkipSpaces(c));
  }

  /** The fixed stop-word set of `extract_keywords`. */
  const StopWords: set<string> := {
    "the", "and", "or", "of", "in", "for", "with", "without",
    "per", "each", "including", "excluding", "code", "service"
  }

  predicate IsKeyword(w: string) {
    w !in StopWords && |w| > 2
  }

  function FilterKeywords(ws: seq<string>): (r: seq<string>)
    ensures |r| <= |ws|
    ensures forall w :: w in r <==> w in ws && IsKeyword(w)
    ensures forall k :: 0 <= k < |r| ==> r[k] in ws && IsKeyword(r[k])
  {
    if |ws| == 0 then []
    else if IsKeyword(ws[0]) then [ws[0]] + FilterKeywords(ws[1..])
    else FilterKeywords(ws[1..])
  }

  /** `TextNormalizer.extract_keywords`: the tokens of the normalised text,
      in order, minus stop words and words of at most two characters. */
  function ExtractKeywords(cell: Cell): (r: seq<string>)
    ensures forall w :: w in r <==> w in Split(Normalize(cell)) && IsKeyword(w)
    ensures forall k :: 0 <= k < |r| ==> |r[k]| > 2 && r[k] !in StopWords
    ensures forall k :: 0 <= k < |r| ==> AllWordChars(r[k])
  {
    var n := Normalize(cell);
    assert Scrubbed(n) by { SpaceFacts(); }
    SplitWordChars(n);
    FilterKeywords(Split(n))
  }

  /** The keywords of a text cell are its lowercased, blanked whitespace-
      separated tokens that are keywords: no token is lost or invented by
      the normaliser. */
  lemma KeywordsOfText(s: string)
    ensures forall w :: w in ExtractKeywords(Some(s)) <==> w in Split(Scrub(LowerAll(s))) && IsKeyword(w)
  {
    NormalizeKeepsWords(s);
  }

  /** `set(extract_keywords(text))`. */
  function KeywordSet(cell: Cell): set<string> {
    set w | w in ExtractKeywords(cell)
  }

  /** The keyword set of a cell is the set of keyword-length, non-stop-word
      tokens of its normalised text, whatever their order or repetition. */
  lemma KeywordSetMembers(cell: Cell)
    ensures forall w :: w in KeywordSet(cell) <==> w in Split(Normalize(cell)) && IsKeyword(w)
  {
  }
}

=== FILE: validator.dfy ===
/** `MappingValidator`: flags ambiguous and weak results on a copy of the
    result rows and lists the flagged ones, lowest score first. */
module Validator {
  import opened Wrappers
  import opened Sorting
  import opened Matcher
  import opened Mapper

  /** A result row with the two columns the validator adds. */
  datatype FlaggedRow = FlaggedRow(row: MappingRow, isAmbiguous: bool, requiresReview: bool)

  /** The default `score_difference_threshold`. */
  const DefaultDifference: real := 0.05

  /** `is_ambiguous`: the best and second-best scores are closer than
      `difference`. A row without a second-best score is never ambiguous, and
      with a non-positive difference a row whose second-best score does not
      exceed its score is not either. */
  predicate Ambiguous(row: MappingRow, difference: real): (b: bool)
    ensures b ==> row.secondBest.Some?
    ensures difference <= 0.0 && row.secondBest.Some? && row.secondBest.value <= row.score ==> !b
  {
    row.secondBest.Some? && row.score - row.secondBest.value < difference
  }

  /** A wider difference flags at least the rows a narrower one flags. */
  lemma AmbiguousMonotone(row: MappingRow, d1: real, d2: real)
    requires d1 <= d2
    ensures Ambiguous(row, d1) ==> Ambiguous(row, d2)
  {
  }

  /** The `requires_review` column: compares confidence labels, which is
      comparing levels, so a row needs review exactly when it is ambiguous or
      at the low or very-low level, and never at no-match. */
  predicate NeedsReview(row: MappingRow, difference: real): (b: bool)
    ensures b <==> Ambiguous(row, difference) || row.confidence == Low || row.confidence == VeryLow
  {
    LabelInjective(row.confidence, Low);
    LabelInjective(row.confidence, VeryLow);
    Ambiguous(row, difference) || Label(row.confidence) == Label(Low) || Label(row.confidence) == Label(VeryLow)
  }

  /** `flag_ambiguous_matches`: every input row, unchanged and in order, with
      its two flags. */
  function FlagAmbiguous(rows: seq<MappingRow>, difference: real): (r: seq<FlaggedRow>)
    ensures |r| == |rows|
    ensures forall i :: 0 <= i < |rows| ==>
              r[i].row == rows[i]
              && r[i].isAmbiguous == Ambiguous(rows[i], difference)
              && r[i].requiresReview == NeedsReview(rows[i], difference)
  {
    seq(|rows|, i requires 0 <= i < |rows| =>
      FlaggedRow(rows[i], Ambiguous(rows[i], difference), NeedsReview(rows[i], difference)))
  }

  /** No row the mapper reports as unmatched is ever flagged for review. */
  lemma NoMatchNeverReviewed(priceList: seq<Candidate>, row: SourceRow, threshold: real, difference: real)
    ensures var r := MapRow(priceList, row, threshold);
            r.confidence == NoMatch ==> !NeedsReview(r, difference)
  {
  }

  /** With a non-positive difference no mapped row is ambiguous, because the
      second-best score never exceeds the best. */
  lemma NeverAmbiguousBelowZero(priceList: seq<Candidate>, row: SourceRow, threshold: real, difference: real)
    requires difference <= 0.0
    ensures !Ambiguous(MapRow(priceList, row, threshold), difference)
  {
  }

  /** The rows whose review flag is set, in input order. */
  function FilterReview(rows: seq<FlaggedRow>): (r: seq<FlaggedRow>)
    ensures |r| <= |rows|
    ensures forall x :: x in r <==> x in rows && x.requiresReview
    ensures forall x: FlaggedRow :: x.requiresReview ==> multiset(r)[x] == multiset(rows)[x]
    ensures forall x: FlaggedRow :: !x.requiresReview ==> multiset(r)[x] == 0
  {
    if |rows| == 0 then []
    else
      assert rows == [rows[0]] + rows[1..];
      if rows[0].requiresReview then [rows[0]] + FilterReview(rows[1..])
      else FilterReview(rows[1..])
  }

  function RowScore(f: FlaggedRow): real {
    f.row.score
  }

  /** `generate_review_list` without the file export: the flagged rows under
      the default difference, sorted by ascending score. */
  function ReviewList(rows: seq<MappingRow>): (r: seq<FlaggedRow>)
    ensures multiset(r) == multiset(FilterReview(FlagAmbiguous(rows, DefaultDifference)))
    ensures forall x :: x in r <==> x in FlagAmbiguous(rows, DefaultDifference) && x.requiresReview
    ensures forall i, j :: 0 <= i < j < |r| ==> r[i].row.score <= r[j].row.score
  {
    var flags := FlagAmbiguous(rows, DefaultDifference);
    var flagged := FilterReview(flags);
    var sorted := SortBy(flagged, RowScore);
    SameMembers(sorted, flagged);
    AscendingScores(sorted);
    sorted
  }

  /** Sorted on `RowScore` means ascending in the row's score. */
  lemma AscendingScores(s: seq<FlaggedRow>)
    requires SortedBy(s, RowScore)
    ensures forall i, j :: 0 <= i < j < |s| ==> s[i].row.score <= s[j].row.score
  {
    forall i, j | 0 <= i < j < |s| ensures s[i].row.score <= s[j].row.score {
      assert RowScore(s[i]) <= RowScore(s[j]);
    }
  }

  /** Two sequences with the same multiset have the same members. */
  lemma SameMembers<T>(a: seq<T>, b: seq<T>)
    requires multiset(a) == multiset(b)
    ensures forall x :: x in a <==> x in b
  {
    forall x ensures x in a <==> x in b {
      assert x in a <==> x in multiset(a);
      assert x in b <==> x in multiset(b);
    }
  }

  /** A row is in the review list exactly when its source row is ambiguous
      or labelled low or very low. */
  lemma ReviewListMembers(rows: seq<MappingRow>, i: nat)
    requires i < |rows|
    ensures FlaggedRow(rows[i], Ambiguous(rows[i], DefaultDifference), NeedsReview(rows[i], DefaultDifference))
              in ReviewList(rows)
        <==> Ambiguous(rows[i], DefaultDifference) || rows[i].confidence == Low || rows[i].confidence == VeryLow
  {
    var flags := FlagAmbiguous(rows, DefaultDifference);
    assert flags[i] == FlaggedRow(rows[i], Ambiguous(rows[i], DefaultDifference), NeedsReview(rows[i], DefaultDifference));
  }

  /** The column lookups of `flag_ambiguous_matches` fail. */
  datatype ValidateError = MissingColumns

  /** `flag_ambiguous_matches` on the frame `map_to_price_list` returns. An
      empty mapping gives a frame without columns, on which the flag columns
      cannot be computed; any other mapping gets its flags. */
  function FlagResults(rows: seq<MappingRow>, difference: real): (r: Result<seq<FlaggedRow>, ValidateError>)
    ensures r.Failure? <==> |rows| == 0
    ensures r.Success? ==> r.value == FlagAmbiguous(rows, difference)
  {
    if |rows| == 0 then Failure(MissingColumns) else Success(FlagAmbiguous(rows, difference))
  }

  /** `generate_review_list` on the frame `map_to_price_list` returns: fails
      on the column-less frame of an empty mapping, and is otherwise the
      review list. */
  function GenerateReviewList(rows: seq<MappingRow>): (r: Result<seq<FlaggedRow>, ValidateError>)
    ensures r.Failure? <==> |rows| == 0
    ensures r.Success? ==> r.value == ReviewList(rows)
  {
    match FlagResults(rows, DefaultDifference)
    case Failure(e) => Failure(e)
    case Success(_) => Success(ReviewList(rows))
  }

  /** Mapping against a loaded price list and then asking for the review list
      fails exactly when the source table has no rows. */
  lemma ReviewAfterMapping(priceList: seq<Candidate>, sources: seq<SourceRow>, threshold: real)
    ensures var m := MapToPriceList(Some(priceList), sources, threshold);
            m.Success? && (GenerateReviewList(m.value).Failure? <==> |sources| == 0)
  {
  }
}

=== FILE: wrappers.dfy ===
/** Optional and failure-carrying values used throughout the model.
    A spreadsheet cell that is None or NaN is `None`; a raised exception is `Failure`. */
module Wrappers {

  datatype Option<+T> = None | Some(value: T)

  datatype Result<+R, +E> = Success(value: R) | Failure(error: E)

  function Min(a: int, b: int): int { if a <= b then a else b }

  function Max(a: int, b: int): int { if a <= b then b else a }
}
